=== FILE: README.md ===
# Time capsule service: a Dafny model

This project models the core of the Flask "time capsule" web service.
A capsule is a message (text, drawing or code) with a title, a creator and
comma-joined tags. It stays locked until its unlock instant. Before that,
readers see only its metadata and a countdown. From the unlock instant on,
they also see its content. The front end lays public capsules out as a collage,
using each capsule's layout fragment: x, y, rotation and scale.

The model covers the `Capsule` record and the API handlers over the
`capsules` table:

- `options.dfy` (module `Options`): the optional value used for nullable
  columns and absent request keys.
- `text.dfy` (module `Text`): the Python string operations the handlers rely
  on. These are `str.isspace`, `lstrip`, `rstrip`, `strip`, `split` and `join`
  with a one-character separator, plus substring search, which is what a
  `LIKE '%…%'` test does.
- `ordering.dfy` (module `Ordering`): Python's code-point order on strings,
  the sorted set that `sorted(set(...))` yields, and a stable sort by an
  integer key, which models `ORDER BY`.
- `queries.dfy` (module `Queries`): `WHERE` as a filter, `OFFSET`/`LIMIT` as
  a window, and counts of disjoint filters.
- `database.dfy` (module `Database`): `Capsule`, its constructor defaults,
  `is_unlocked`, `time_until_unlock` and `to_dict`.
- `routes.dfy` (module `Routes`): the handlers `create_capsule`,
  `get_capsule`, `delete_capsule`, `update_capsule_position`, `get_capsules`,
  `get_unlocked_capsules`, `get_locked_capsules`, `get_tags` and `get_stats`.
  Each is a pure function of the table, the current instant and the request.

Conventions:

- The table is a map from id to record plus the insertion order. `Valid`
  ties the two together, and a scan (`Records`) follows the insertion order.
- A handler that writes returns the new table together with its response.
  Every rejected request returns the table unchanged.
- Instants are whole UTC seconds. The handler's clock read is the parameter
  `now`.
- `parse_datetime` is the empty-string guard in front of an abstract
  ISO-8601 parser `parse`.
- The generated UUID is the parameter `freshId`, which must not already be in
  the table.
- The values of `random.random()` behind `random.uniform` are the parameter
  `draws`.
- The database's case folding in `LIKE`/`ilike` comparisons is the
  parameter `fold`.
- In a create request, a key that is absent and a key whose value is null
  are both `None`, except that a null `tags` is `TagNull`. The flag
  `otherKeys` records a key the fields do not show: an unknown key, or a
  known key whose value is null. Either one makes the body non-empty.

## Model

| member | source | states |
|---|---|---|
| Database.IsUnlocked | src/backend/database.py:86-97 | a capsule is unlocked at now exactly when now is at or after its unlock instant |
| Database.UnlockIsMonotone | src/backend/database.py:86-97 | once a capsule is unlocked at some instant it is unlocked at every later instant |
| Database.TimeUntilUnlock | src/backend/database.py:99-112 | no remaining time exactly when the capsule is unlocked; otherwise a positive duration that, added to now, reaches the unlock instant |
| Database.CountdownOf | src/backend/database.py:145-149 | the countdown has non-negative days, hours in 0..23 and minutes in 0..59, and it shows the remaining time rounded down to a whole minute |
| Database.ProjectTags | src/backend/database.py:129 | a null or empty tags column projects to no tags; otherwise to a non-empty list of comma-free pieces whose comma-join is the stored string |
| Database.TagsRoundTrip | src/backend/database.py:129 | storing a list of comma-free tags as their comma-join and projecting it gives the list back, except that a join equal to "" (from [] or [""]) projects to [] |
| Database.ToDict | src/backend/database.py:114-151 | content appears exactly when it is requested and the capsule is unlocked; a countdown appears exactly when the capsule is locked; never both; every other field is copied from the record |
| Database.Uniform | src/backend/database.py:73-84 | a uniform draw between lo and hi lies within [lo, hi] |
| Database.NewCapsule | src/backend/database.py:68-84 | supplied constructor arguments are kept; a missing id becomes the fresh id; missing layout fields fall in x, y in [10, 90], rotation in [-15, 15] and scale in [0.8, 1.2] |
| Text.LStrip | src/backend/routes.py:314 | the result is a suffix of the input that is empty or starts with a non-space |
| Text.LStripRemovesSpace | src/backend/routes.py:314 | everything lstrip removes is whitespace |
| Text.RStrip | src/backend/routes.py:314 | the result is a prefix of the input that is empty or ends with a non-space |
| Text.RStripRemovesSpace | src/backend/routes.py:314 | everything rstrip removes is whitespace |
| Text.Strip | src/backend/routes.py:314 | the stripped string is no longer than the input and neither starts nor ends with whitespace |
| Text.StripIsMiddle | src/backend/routes.py:314 | strip keeps exactly a contiguous part of the input; before it and after it there is only whitespace |
| Text.StripEmptyIffBlank | src/backend/routes.py:314-315 | a piece strips to the empty string exactly when it is all whitespace, which is when get_tags drops it |
| Text.StripIdempotent | src/backend/routes.py:314 | stripping a stripped string changes nothing |
| Text.UnpaddedIsStripped | src/backend/routes.py:314 | a string with no whitespace at either end is its own strip |
| Text.Split | src/backend/routes.py:313 | splitting yields at least one piece; no piece contains the separator; joining the pieces with the separator gives the input back |
| Text.SplitCount | src/backend/routes.py:313 | there is one more piece than there are separators in the input |
| Text.SplitJoin | src/backend/routes.py:212-214 | splitting the join of a non-empty list of separator-free strings gives the list back |
| Text.JoinEmpty | src/backend/routes.py:214 | a join is empty exactly when the list is empty or holds only the empty string |
| Ordering.LessIrreflexive | src/backend/routes.py:318 | no string sorts before itself |
| Ordering.LessTransitive | src/backend/routes.py:318 | the string order is transitive |
| Ordering.LessTotal | src/backend/routes.py:318 | of two different strings, one sorts before the other |
| Ordering.InsertUnique | src/backend/routes.py:316-318 | adding a string to a sorted list without repetitions keeps it strictly sorted, and its elements become the old ones plus the new one |
| Ordering.SortedUnique | src/backend/routes.py:310-318 | the sorted set of a list is strictly ascending and has exactly the list's elements |
| Ordering.StrictlySortedUnique | src/backend/routes.py:318 | two strictly sorted lists with the same elements are equal, so the sorted set is determined by the set |
| Ordering.InsertBy | src/backend/routes.py:85 | inserting into a list sorted by a key keeps it sorted and adds exactly that element |
| Ordering.SortBy | src/backend/routes.py:85 | sorting by a key yields a list ordered by the key that is a permutation of the input |
| Ordering.TopWindow | src/backend/routes.py:116-118 | a LIMIT n window over rows sorted by a key holds no row more often than the rows do, leaves out no row whose key is smaller than that of a row it keeps, and keeps every row when there are at most n |
| Ordering.WindowIsPrefix | src/backend/routes.py:118 | a window at offset 0 is a prefix of the rows, and the rows split into it and the rest |
| Ordering.SortedTailBound | src/backend/routes.py:116-118 | in a list sorted by a key, every row after a cut has a key at least that of every row before it |
| Queries.Filter | src/backend/routes.py:68 | a filter keeps exactly the rows that satisfy the predicate, each as often as it occurs in the input, and no other rows |
| Queries.FilterPartition | src/backend/routes.py:331-339 | when two predicates split a third one without overlap, their counts add up to its count |
| Queries.FilterDistinct | src/backend/routes.py:253 | filtering a list without repetitions leaves none |
| Queries.DistinctLength | src/backend/routes.py:95 | a list without repetitions is as long as its set of elements, so a count over it counts distinct rows |
| Queries.Window | src/backend/routes.py:85 | OFFSET/LIMIT keeps min(limit, rows - offset) rows (none past the end), starting at the offset, in order |
| Routes.RecordsOf | src/backend/routes.py:304-308 | a scan yields only stored rows, and each listed id that is stored |
| Routes.RecordsCoverStore | src/backend/routes.py:304-308 | in a valid table a scan yields exactly the stored rows |
| Routes.RecordsOfDistinct | src/backend/routes.py:304-308 | a scan over distinct ids, with each row stored under its own id, yields no row twice |
| Routes.CountIsStoredMatches | src/backend/routes.py:95 | in a valid table a filtered scan lists each matching stored row exactly once, so its length (COUNT(*)) is the number of stored rows that match |
| Routes.FilteredScanMembers | src/backend/routes.py:304-308 | in a valid table a filtered scan holds exactly the stored rows that satisfy the filter |
| Routes.FirstMissingIn | src/backend/routes.py:195-199 | the check loop answers none exactly when every listed key has a non-empty value; otherwise it names a key whose value is absent or empty and before which every key has a non-empty value |
| Routes.FirstMissing | src/backend/routes.py:195-199 | none exactly when title, content, creator_name and unlock_date are all present and non-empty; otherwise the first of them, in that order, that is absent or empty |
| Routes.FirstMissingInOrder | src/backend/routes.py:195-199 | the loop names the same key as testing title, content, creator_name and unlock_date one after the other |
| Routes.ParseDatetime | src/backend/routes.py:14-44 | definition: an empty string parses to nothing; any other string parses to what the ISO-8601 parser gives |
| Routes.StoredTags | src/backend/routes.py:212-214 | definition: a list is comma-joined, a string kept as given, null kept null, and an absent key stored as the join of the empty list |
| Routes.StoredTagsShown | src/backend/routes.py:212-214 | what to_dict shows of the stored tags: a list of comma-free tags comes back as sent, except that [] and [""] both show as no tags; a string shows split at its commas; an absent key or a null shows no tags |
| Routes.CreateCapsule | src/backend/routes.py:171-234 | each rejection happens under exactly its condition and leaves the table unchanged. The rejections are: no data, for a body without any key (a null or unknown key makes the body non-empty); the first missing or empty required field, in the order title, content, creator_name, unlock_date; an unparsable date; a date not after now. Success happens exactly otherwise. It adds one row under the fresh id with the request's fields, content type "text" and public when absent or null, and the default layout ranges. The other rows do not change. The answer is the to_dict projection of the stored row without content, so it carries no content and a countdown |
| Routes.CreatePreservesValid | src/backend/routes.py:217-229 | creating keeps the table valid |
| Routes.GetCapsule | src/backend/routes.py:149-168 | not found exactly for an unknown id; private exactly for a stored private capsule, whatever its unlock state; success exactly for a stored public capsule, answering its to_dict projection at now: its content exactly when unlocked and a countdown exactly when locked |
| Routes.CreateThenGet | src/backend/routes.py:217-234 | a capsule created public can be fetched at any instant: locked with a countdown before its unlock date, with its content from then on |
| Routes.AcceptedUnlockAsWritten | src/backend/routes.py:202-209 | as written, a date passes the future check exactly when its instant is after now, and the stored unlock date is its wall-clock reading, the instant shifted by its offset |
| Routes.OffsetUnlocksEarly | src/backend/routes.py:202-209 | as written, a date whose negative offset is at least its distance into the future passes the check, yet the stored capsule is already unlocked and its answer has no countdown |
| Routes.OffsetUnlocksEarlyExample | src/backend/routes.py:202-209 | at 12:00Z the date T10:00:00-05:00 (15:00Z) passes the check and is stored as 10:00 |
| Routes.AcceptedUnlock | src/backend/routes.py:202-209 | as intended, an accepted date is stored as the instant the check accepted, so it is after now |
| Routes.AcceptedUnlockAgreesInUtc | src/backend/routes.py:202-209 | the stored date as written and as intended agree exactly when the date carries no UTC offset |
| Routes.CreateStoresAcceptedUnlock | src/backend/routes.py:202-234 | the modelled create stores the intended unlock date, whatever the offset, so the new capsule is locked at creation |
| Routes.DeleteCapsule | src/backend/routes.py:237-256 | an unknown id answers not found and changes nothing; otherwise exactly that row disappears and every other row is unchanged |
| Routes.DeletePreservesValid | src/backend/routes.py:248-254 | deleting keeps the table valid |
| Routes.DeleteThenGet | src/backend/routes.py:248-256 | after a successful delete, fetching the id answers not found |
| Routes.Clamp | src/backend/routes.py:283-290 | the clamped value lies within the bounds; it equals the input inside them and the nearer bound outside |
| Routes.ClampIdempotent | src/backend/routes.py:283-290 | clamping a clamped value changes nothing |
| Routes.ApplyPatch | src/backend/routes.py:283-290 | each supplied layout field lies in its range (x, y in [0, 100], rotation in [-30, 30], scale in [0.5, 1.5]), equals the sent value when that is inside the range and the nearer bound otherwise; each omitted field is kept |
| Routes.UpdatePosition | src/backend/routes.py:259-294 | an unknown id answers not found and changes nothing. Otherwise only the layout of that one capsule changes: each supplied field becomes its value clamped to its range and each omitted one stays as before. The answer is the to_dict projection of the updated row, with content exactly when unlocked |
| Routes.UpdatePositionIdempotent | src/backend/routes.py:276-292 | sending the same position update twice leaves the table as sending it once |
| Routes.UpdatePreservesValid | src/backend/routes.py:276-292 | updating a position keeps the table valid |
| Routes.MatchesQuery | src/backend/routes.py:68-83 | a row matches when it is public and, for each given non-empty filter, its tags contain the tag, its title or content contains the search term (both compared after case folding), and its content type equals the requested one |
| Routes.PageLimit | src/backend/routes.py:65 | the page size is the requested limit capped at 100, and 50 when no limit is given |
| Routes.NewestFirst | src/backend/routes.py:85 | a permutation of the rows ordered by creation instant, newest first |
| Routes.SoonestFirst | src/backend/routes.py:142 | a permutation of the rows ordered by unlock instant, soonest first |
| Routes.NewestPage | src/backend/routes.py:85 | the page is the OFFSET/LIMIT window of some newest-first arrangement of the rows, so it holds min(limit, rows - offset) of them (none past the end), newest first |
| Routes.SoonestPage | src/backend/routes.py:139-142 | the page is the first limit rows of some soonest-unlock-first arrangement of the rows, so it holds min(limit, rows) of them, soonest first |
| Routes.Show | src/backend/routes.py:88-91 | definition: each row of the page becomes its to_dict projection, in order, with the content flag chosen row by row |
| Routes.ShowListed | src/backend/routes.py:88-91 | each row becomes its to_dict projection with content exactly when unlocked, in order; public sorted rows give public sorted items |
| Routes.QueryPage | src/backend/routes.py:65-85 | the page is the OFFSET/LIMIT window of some newest-first arrangement of all matches, so it holds public rows that satisfy every given filter, newest first, as many as OFFSET/LIMIT leave |
| Routes.FirstPageHoldsEveryMatch | src/backend/routes.py:85 | a page at offset 0 whose limit is at least the number of matches lists every match |
| Routes.ListCapsules | src/backend/routes.py:47-98 | the limit in effect is min(limit, 100) with default 50; the offset defaults to 0; total counts every match whatever the page; items are the page's projections, all public, with content exactly when unlocked, newest first, and at most the limit in effect |
| Routes.UnlockedPage | src/backend/routes.py:112-118 | the page is the first min(limit, 100) rows (default 30) of some newest-first arrangement of the public capsules unlocked at now |
| Routes.UnlockedRowsShown | src/backend/routes.py:114-117 | rows drawn from the unlocked selection are stored public capsules unlocked at now |
| Routes.UnlockedPageIsNewest | src/backend/routes.py:112-121 | the unlocked list shows the newest unlocked public capsules: none more often than stored, none left out that was created after one shown, and all of them when they fit in the limit |
| Routes.ListUnlocked | src/backend/routes.py:101-122 | at most min(limit, 100) items, default 30; every item is public, unlocked and carries its content; newest first |
| Routes.LockedPage | src/backend/routes.py:136-142 | the page is the first min(limit, 50) rows (default 10) of some soonest-unlock-first arrangement of the public capsules still locked at now |
| Routes.LockedRowsShown | src/backend/routes.py:138-141 | rows drawn from the locked selection are stored public capsules still locked at now |
| Routes.LockedPageIsSoonest | src/backend/routes.py:136-145 | the locked list shows the locked public capsules that unlock soonest: none more often than stored, none left out that unlocks before one shown, and all of them when they fit in the limit |
| Routes.ListLocked | src/backend/routes.py:125-146 | at most min(limit, 50) items, default 10; every item is public and locked, carries no content and carries a countdown; soonest unlock first |
| Routes.StrippedPieces | src/backend/routes.py:313-316 | the kept tags are exactly the non-empty stripped pieces |
| Routes.RowTags | src/backend/routes.py:311-316 | a row contributes exactly its tags: the non-empty stripped comma pieces of a public capsule's non-empty tags |
| Routes.TagPieces | src/backend/routes.py:310-316 | the rows contribute exactly the tags that some row contributes |
| Routes.PiecesAreTags | src/backend/routes.py:310-316 | the rows contribute exactly the tags some row has, in the sense of the tag definition |
| Routes.TagIndex | src/backend/routes.py:310-318 | over any rows, the index is strictly ascending, its tags non-empty with no whitespace at either end, and it holds exactly the tags some row contributes |
| Routes.TagIsStripped | src/backend/routes.py:313-316 | every contributed tag is non-empty and neither starts nor ends with whitespace |
| Routes.PiecesAreStripped | src/backend/routes.py:313-316 | tags taken from the contributions are non-empty with no whitespace at either end |
| Routes.GetTags | src/backend/routes.py:297-318 | the tag index is strictly ascending (hence without repetitions); every tag in it is non-empty with no whitespace at either end; it holds exactly the tags some stored capsule contributes |
| Routes.ListedTagsAreStripped | src/backend/routes.py:314-318 | stripping a listed tag again changes nothing |
| Routes.GetStats | src/backend/routes.py:321-345 | total counts the public capsules, unlocked those unlocked at now, locked those still locked; total equals unlocked plus locked |

## Left out

- Flask routing, JSON decoding, HTTP status codes and response bodies, CORS
  and static files are not modelled. Each handler answers with a `Result` of
  a view or an `Error` (`NoData`, `MissingField`, `InvalidUnlockDate`,
  `UnlockDateNotInFuture`, `NotFound`, `Private`).
- SQLAlchemy, sessions and commits are not modelled. The table is a map plus
  the insertion order, and a commit is the returned table.
- `ORDER BY` ties: SQL leaves their order open. The model computes one
  answer, breaking ties by insertion order (a stable sort). The page
  contracts state only that the page is a window of some arrangement sorted
  by the key, which holds for any tie order.
- The grammar `parse_datetime` accepts (`fromisoformat`, then four `strptime`
  formats) is not modelled. It is a library wrapper, so it is the abstract
  parameter `parse`, and only its empty-input guard is modelled.
- Python `datetime` details are not modelled: microseconds, time zones
  (instants are UTC; the one place an offset matters is under Findings), and the
  `isoformat` rendering of `created_at` and `unlock_date`.
- Database.ToDict: `to_dict` reads the clock separately for `is_unlocked`,
  the content test and `time_until_unlock`. The model reads one `now` per
  call, so a capsule that unlocks between two reads is not modelled.
- Database.NewCapsule: `random.uniform` is modelled as `lo + (hi - lo) * u`
  with `u` in [0, 1) given as a parameter. Floating-point rounding, which
  in Python can reach `hi`, is left out (reals are exact).
- Routes.ListCapsules: a `%` or `_` inside the tag or search term is a `LIKE`
  wildcard in the source. The model matches it literally. The engine's case
  folding is the abstract parameter `fold`.
- Routes.ListCapsules: `limit` and `offset` are naturals. The source does not
  guard against negative values, and a non-numeric one raises an error in
  `int()`.
- Routes.CreateCapsule: request values are strings, booleans or tag lists. A
  JSON value of another type is not modelled. A body that is not a JSON
  object is not modelled either. An explicit `null` for `content_type` or
  `is_public` is modelled as absent: the ORM leaves a `None` out of the
  `INSERT`, so the column default applies (src/backend/database.py:56 and 62).
- Routes.CreateCapsule: it stores the instant the future check accepted.
  The source stores the wall-clock fields of an offset date, and they read
  back as UTC. So for a non-UTC offset the model does not reproduce the
  stored unlock date or the unlock test that follows from it. See Findings.
- Routes.CreateThenGet: holds for the intended unlock date only. With the
  source's storage, a date with a large negative offset unlocks at once.
- Routes.UpdatePosition: the layout values are reals. A request without a
  JSON body, a value `float()` rejects, and NaN or infinities are not
  modelled.
- `Capsule.__repr__` is not modelled.
- `created_at` is the handler's `now`. The column default that would set it
  at insert time reads the same clock within the same request.
- The application factory, configuration and the development server
  (`src/backend/app.py`, `run.py`) are not part of this model.

## Findings

| source | as written | input that shows it | evidently intended | confidence | as-written member | corrected member |
|---|---|---|---|---|---|---|
| src/backend/routes.py:28-31, 202-209; src/backend/database.py:61 | the future check compares the parsed offset-aware instant, but `unlock_date` is a `DateTime` column without a time zone: SQLite keeps only the wall-clock fields, and `is_unlocked` reads them back as UTC | at now 12:00Z, unlock_date `…T10:00:00-05:00` is 15:00Z and passes the check, but is stored as 10:00, so the new capsule is unlocked at once and the create answer carries no countdown | store the instant that passed the check (normalised to UTC) | medium, not executed | Routes.AcceptedUnlockAsWritten, shown by Routes.OffsetUnlocksEarly and Routes.OffsetUnlocksEarlyExample | Routes.AcceptedUnlock, used by Routes.CreateCapsule through Routes.CreateStoresAcceptedUnlock |

=== FILE: database.dfy ===
/** The capsule record (the `capsules` table) and its time-gated views:
    whether it is unlocked at an instant, how long remains, and the outward
    projection that hides content until the unlock instant. Instants are
    whole UTC seconds, so the naive-to-UTC normalisation is the identity. */
module Database {
  import opened Options
  import Text

  type Id = string

  /** Whole seconds since the epoch, UTC. */
  type Instant = int

  /** Display layout of a capsule in the front-end collage. */
  datatype Fragment = Fragment(x: real, y: real, rotation: real, scale: real)

  datatype Capsule = Capsule(
    id: Id,
    title: string,
    content: string,
    contentType: string,
    creatorName: string,
    creatorEmail: Option<string>,
    /** Comma-joined tags as stored; the column is nullable. */
    tags: Option<string>,
    createdAt: Instant,
    unlockDate: Instant,
    isPublic: bool,
    fragment: Fragment)

  /** The `time_remaining` object: whole days, then hours and minutes of
      the remainder. */
  datatype Countdown = Countdown(days: int, hours: int, minutes: int)

  /** The dictionary `to_dict` builds. `content` and `timeRemaining` are the
      two optional keys. */
  datatype View = View(
    id: Id,
    title: string,
    contentType: string,
    creatorName: string,
    tags: seq<string>,
    createdAt: Instant,
    unlockDate: Instant,
    isPublic: bool,
    isUnlocked: bool,
    fragment: Fragment,
    content: Option<string>,
    timeRemaining: Option<Countdown>)

  const SecondsPerMinute: int := 60
  const SecondsPerHour: int := 3600
  const SecondsPerDay: int := 86400

  /** `is_unlocked`: the unlock instant has been reached. */
  predicate IsUnlocked(c: Capsule, now: Instant) {
    now >= c.unlockDate
  }

  /** Once unlocked, a capsule stays unlocked as time advances. */
  lemma UnlockIsMonotone(c: Capsule, now: Instant, later: Instant)
    requires now <= later
    ensures IsUnlocked(c, now) ==> IsUnlocked(c, later)
  {
  }

  /** `time_until_unlock`: the positive number of seconds left while
      locked, none once unlocked. */
  function TimeUntilUnlock(c: Capsule, now: Instant): (r: Option<int>)
    ensures r.None? <==> IsUnlocked(c, now)
    ensures r.Some? ==> r.value > 0 && now + r.value == c.unlockDate
  {
    if IsUnlocked(c, now) then None else Some(c.unlockDate - now)
  }

  /** The `time_remaining` breakdown of a positive duration, as Python's
      `timedelta.days` and `timedelta.seconds` give it: the shown time is
      the duration rounded down to a whole minute. */
  function CountdownOf(remaining: int): (cd: Countdown)
    requires remaining > 0
    ensures cd.days >= 0
    ensures 0 <= cd.hours < 24
    ensures 0 <= cd.minutes < 60
    ensures var shown := cd.days * SecondsPerDay + cd.hours * SecondsPerHour + cd.minutes * SecondsPerMinute;
            shown <= remaining < shown + SecondsPerMinute
  {
    var days := remaining / SecondsPerDay;
    var seconds := remaining % SecondsPerDay;
    var hours := seconds / SecondsPerHour;
    var minutes := (seconds % SecondsPerHour) / SecondsPerMinute;
    assert remaining == days * SecondsPerDay + seconds;
    assert seconds == hours * SecondsPerHour + seconds % SecondsPerHour;
    assert seconds % SecondsPerHour < minutes * SecondsPerMinute + SecondsPerMinute;
    Countdown(days, hours, minutes)
  }

  /** The projected `tags` list: the comma split of the stored string, with
      no trimming; empty when the column is null or empty. */
  function ProjectTags(tags: Option<string>): (r: seq<string>)
    ensures tags.None? || tags == Some([]) ==> r == []
    ensures tags.Some? && tags.value != [] ==>
              |r| >= 1 && Text.Join(r, ',') == tags.value && forall p :: p in r ==> ',' !in p
  {
    if tags.None? || tags.value == [] then [] else Text.Split(tags.value, ',')
  }

  /** Storing a list of comma-free tags joined by commas and projecting it
      gives the list back, except that a join that is empty projects to
      no tags at all. */
  lemma TagsRoundTrip(xs: seq<string>)
    requires forall p :: p in xs ==> ',' !in p
    ensures ProjectTags(Some(Text.Join(xs, ','))) == if xs == [] || xs == [[]] then [] else xs
  {
    Text.JoinEmpty(xs, ',');
    if xs != [] {
      Text.SplitJoin(xs, ',');
    }
  }

  /** `to_dict(include_content)`: content only when requested and unlocked,
      a countdown only while locked, never both. */
  function ToDict(c: Capsule, now: Instant, includeContent: bool): (v: View)
    ensures v.content.Some? <==> includeContent && IsUnlocked(c, now)
    ensures v.content.Some? ==> v.content.value == c.content
    ensures v.timeRemaining.Some? <==> !IsUnlocked(c, now)
    ensures v.timeRemaining.Some? ==> v.timeRemaining.value == CountdownOf(c.unlockDate - now)
    ensures !(v.content.Some? && v.timeRemaining.Some?)
    ensures v.isUnlocked == IsUnlocked(c, now)
    ensures v.tags == ProjectTags(c.tags)
    ensures v.id == c.id && v.title == c.title && v.contentType == c.contentType
    ensures v.creatorName == c.creatorName && v.isPublic == c.isPublic
    ensures v.createdAt == c.createdAt && v.unlockDate == c.unlockDate && v.fragment == c.fragment
  {
    var unlocked := IsUnlocked(c, now);
    var content := if includeContent && unlocked then Some(c.content) else None;
    var remaining :=
      if includeContent && unlocked then None
      else if !unlocked then
        match TimeUntilUnlock(c, now)
        case Some(r) => if r != 0 then Some(CountdownOf(r)) else None
        case None => None
      else None;
    View(c.id, c.title, c.contentType, c.creatorName, ProjectTags(c.tags), c.createdAt,
         c.unlockDate, c.isPublic, unlocked, c.fragment, content, remaining)
  }

  /** Unit samples from `random.random()`, one per fragment field, each in
      [0, 1). */
  datatype Draws = Draws(x: real, y: real, rotation: real, scale: real)

  predicate UnitDraws(d: Draws) {
    && 0.0 <= d.x < 1.0
    && 0.0 <= d.y < 1.0
    && 0.0 <= d.rotation < 1.0
    && 0.0 <= d.scale < 1.0
  }

  /** `random.uniform(lo, hi)` fed with the unit sample `u`. */
  function Uniform(lo: real, hi: real, u: real): (r: real)
    requires lo <= hi && 0.0 <= u < 1.0
    ensures lo <= r <= hi
  {
    ProductNonNegative(hi - lo, u);
    ProductNonNegative(hi - lo, 1.0 - u);
    lo + (hi - lo) * u
  }

  lemma ProductNonNegative(a: real, b: real)
    requires a >= 0.0 && b >= 0.0
    ensures a * b >= 0.0
  {
  }

  /** The keyword arguments `Capsule(**kwargs)` may receive; the optional
      ones fall back to a fresh id and random layout defaults. */
  datatype Init = Init(
    id: Option<Id>,
    title: string,
    content: string,
    contentType: string,
    creatorName: string,
    creatorEmail: Option<string>,
    tags: Option<string>,
    createdAt: Instant,
    unlockDate: Instant,
    isPublic: bool,
    x: Option<real>,
    y: Option<real>,
    rotation: Option<real>,
    scale: Option<real>)

  /** `Capsule.__init__`: supplied values are kept; a missing id becomes
      `freshId`, and each missing fragment field is drawn uniformly from its
      default range. */
  function NewCapsule(init: Init, freshId: Id, draws: Draws): (c: Capsule)
    requires UnitDraws(draws)
    ensures c.id == init.id.GetOr(freshId)
    ensures init.x.Some? ==> c.fragment.x == init.x.value
    ensures init.y.Some? ==> c.fragment.y == init.y.value
    ensures init.rotation.Some? ==> c.fragment.rotation == init.rotation.value
    ensures init.scale.Some? ==> c.fragment.scale == init.scale.value
    ensures init.x.None? ==> 10.0 <= c.fragment.x <= 90.0
    ensures init.y.None? ==> 10.0 <= c.fragment.y <= 90.0
    ensures init.rotation.None? ==> -15.0 <= c.fragment.rotation <= 15.0
    ensures init.scale.None? ==> 0.8 <= c.fragment.scale <= 1.2
    ensures c.title == init.title && c.content == init.content && c.contentType == init.contentType
    ensures c.creatorName == init.creatorName && c.creatorEmail == init.creatorEmail
    ensures c.tags == init.tags && c.createdAt == init.createdAt
    ensures c.unlockDate == init.unlockDate && c.isPublic == init.isPublic
  {
    var x := if init.x.Some? then init.x.value else Uniform(10.0, 90.0, draws.x);
    var y := if init.y.Some? then init.y.value else Uniform(10.0, 90.0, draws.y);
    var rotation := if init.rotation.Some? then init.rotation.value else Uniform(-15.0, 15.0, draws.rotation);
    var scale := if init.scale.Some? then init.scale.value else Uniform(0.8, 1.2, draws.scale);
    Capsule(init.id.GetOr(freshId), init.title, init.content, init.contentType, init.creatorName,
            init.creatorEmail, init.tags, init.createdAt, init.unlockDate, init.isPublic,
            Fragment(x, y, rotation, scale))
  }
}

=== FILE: options.dfy ===
/** The optional value used for nullable columns, absent request keys and
    partial functions such as the date parser. */
module Options {

  datatype Option<+T> = None | Some(value: T) {

    /** The carried value, or `default` when there is none (Python's
        `dict.get(key, default)` when the key may be absent). */
    function GetOr(default: T): T {
      match this
      case Some(v) => v
      case None => default
    }
  }
}

=== FILE: ordering.dfy ===
/** Orders used by the listings: Python's code-point comparison of strings
    (for the sorted tag index) and ascending order on an integer key (for
    `ORDER BY` on instants). */
module Ordering {
  import Queries

  /** Python's `a < b` on `str`: lexicographic by code point, a proper
      prefix coming first. */
  predicate Less(a: string, b: string) {
    if a == [] then b != []
    else if b == [] then false
    else if a[0] != b[0] then a[0] < b[0]
    else Less(a[1..], b[1..])
  }

  lemma {:induction false} LessIrreflexive(a: string)
    ensures !Less(a, a)
  {
    if a != [] {
      LessIrreflexive(a[1..]);
    }
  }

  lemma {:induction false} LessTransitive(a: string, b: string, c: string)
    requires Less(a, b) && Less(b, c)
    ensures Less(a, c)
  {
    if a != [] && a[0] == b[0] && b[0] == c[0] {
      LessTransitive(a[1..], b[1..], c[1..]);
    }
  }

  lemma {:induction false} LessTotal(a: string, b: string)
    requires a != b
    ensures Less(a, b) || Less(b, a)
  {
    if a != [] && b != [] && a[0] == b[0] {
      assert a == [a[0]] + a[1..] && b == [b[0]] + b[1..];
      LessTotal(a[1..], b[1..]);
    }
  }

  /** Ascending without repetitions. */
  predicate StrictlySorted(s: seq<string>) {
    forall i, j :: 0 <= i < j < |s| ==> Less(s[i], s[j])
  }

  /** Adds `x` to a strictly sorted list at its place, unless present. */
  function InsertUnique(x: string, s: seq<string>): (r: seq<string>)
    requires StrictlySorted(s)
    ensures StrictlySorted(r)
    ensures forall y :: y in r <==> y == x || y in s
  {
    if s == [] then [x]
    else if x == s[0] then s
    else if Less(x, s[0]) then
      assert forall j :: 0 < j < |s| ==> Less(x, s[j]) by {
        forall j | 0 < j < |s| { LessTransitive(x, s[0], s[j]); }
      }
      [x] + s
    else
      LessTotal(x, s[0]);
      var tail := InsertUnique(x, s[1..]);
      assert forall y :: y in s[1..] ==> Less(s[0], y);
      [s[0]] + tail
  }

  /** The distinct elements of `xs`, in ascending order: Python's
      `sorted(set(xs))`. */
  function SortedUnique(xs: seq<string>): (r: seq<string>)
    ensures StrictlySorted(r)
    ensures forall y :: y in r <==> y in xs
  {
    if xs == [] then [] else InsertUnique(xs[0], SortedUnique(xs[1..]))
  }

  /** A strictly sorted list is determined by its elements, so
      `SortedUnique` is the only answer `sorted(set(xs))` can give. */
  lemma {:induction false} StrictlySortedUnique(a: seq<string>, b: seq<string>)
    requires StrictlySorted(a) && StrictlySorted(b)
    requires forall y :: y in a <==> y in b
    ensures a == b
  {
    if a != [] {
      assert a[0] in a;
    }
    if b != [] {
      assert b[0] in b;
    }
    if a != [] && b != [] {
      if a[0] != b[0] {
        assert b[0] in a && a[0] in b;
        var k :| 0 <= k < |a| && a[k] == b[0];
        var m :| 0 <= m < |b| && b[m] == a[0];
        assert Less(a[0], b[0]);
        assert Less(b[0], a[0]);
        LessTransitive(a[0], b[0], a[0]);
        LessIrreflexive(a[0]);
        assert false;
      }
      assert a == [a[0]] + a[1..] && b == [b[0]] + b[1..];
      forall y | y in a[1..]
        ensures y in b[1..]
      {
        var k :| 1 <= k < |a| && a[k] == y;
        assert Less(a[0], a[k]);
        assert y in b;
        if y == b[0] {
          LessIrreflexive(y);
          assert false;
        }
      }
      forall y | y in b[1..]
        ensures y in a[1..]
      {
        var k :| 1 <= k < |b| && b[k] == y;
        assert Less(b[0], b[k]);
        assert y in a;
        if y == a[0] {
          LessIrreflexive(y);
          assert false;
        }
      }
      StrictlySortedUnique(a[1..], b[1..]);
      assert a == [a[0]] + a[1..] && b == [b[0]] + b[1..];
    }
  }

  /** Ascending by `key`; equal keys may appear in any order. */
  predicate SortedBy<T>(s: seq<T>, key: T -> int) {
    forall i, j :: 0 <= i < j < |s| ==> key(s[i]) <= key(s[j])
  }

  /** Putting an element no larger than the rest in front keeps a list
      sorted. */
  lemma ConsSorted<T>(h: T, t: seq<T>, key: T -> int)
    requires SortedBy(t, key)
    requires forall j :: 0 <= j < |t| ==> key(h) <= key(t[j])
    ensures SortedBy([h] + t, key)
  {
    var r := [h] + t;
    forall i, j | 0 <= i < j < |r|
      ensures key(r[i]) <= key(r[j])
    {
      assert r[j] == t[j - 1];
      if i > 0 {
        assert r[i] == t[i - 1];
      }
    }
  }

  /** A lower bound of `x` and of every element of `rest` bounds every
      element of a list that holds exactly those. */
  lemma BoundKept<T>(h: T, x: T, rest: seq<T>, t: seq<T>, key: T -> int)
    requires multiset(t) == multiset(rest) + multiset{x}
    requires key(h) <= key(x)
    requires forall j :: 0 <= j < |rest| ==> key(h) <= key(rest[j])
    ensures forall j :: 0 <= j < |t| ==> key(h) <= key(t[j])
  {
    forall j | 0 <= j < |t|
      ensures key(h) <= key(t[j])
    {
      assert t[j] in multiset(t);
      if t[j] != x {
        assert t[j] in multiset(rest);
        var k :| 0 <= k < |rest| && rest[k] == t[j];
      }
    }
  }

  /** Inserts `x` before the first element whose key is not smaller. */
  function InsertBy<T>(x: T, s: seq<T>, key: T -> int): (r: seq<T>)
    requires SortedBy(s, key)
    ensures SortedBy(r, key)
    ensures multiset(r) == multiset(s) + multiset{x}
  {
    if s == [] || key(x) <= key(s[0]) then
      ConsSorted(x, s, key);
      [x] + s
    else
      var tail := InsertBy(x, s[1..], key);
      BoundKept(s[0], x, s[1..], tail, key);
      ConsSorted(s[0], tail, key);
      assert s == [s[0]] + s[1..];
      [s[0]] + tail
  }

  /** Insertion sort by `key`, keeping the relative order of equal keys. */
  function SortBy<T>(s: seq<T>, key: T -> int): (r: seq<T>)
    ensures SortedBy(r, key)
    ensures multiset(r) == multiset(s)
  {
    if s == [] then []
    else
      assert s == [s[0]] + s[1..];
      InsertBy(s[0], SortBy(s[1..], key), key)
  }

  /** `page` is an answer `ORDER BY key OFFSET offset LIMIT limit` may
      give over `rows`: the window at `offset` of some arrangement of the
      rows sorted by `key` (the order among equal keys is left open). */
  ghost predicate IsSortedWindow<T(!new)>(page: seq<T>, rows: seq<T>, offset: nat, limit: nat, key: T -> int) {
    exists o :: multiset(o) == multiset(rows) && SortedBy(o, key) && page == Queries.Window(o, offset, limit)
  }

  /** `LIMIT n` over rows sorted by `key` keeps the `n` rows of smallest key:
      the page takes each row at most as often as it occurs, every row left
      out has a key no smaller than any row on the page, and a page at least
      as large as the rows keeps them all. */
  lemma TopWindow<T(!new)>(w: seq<T>, rows: seq<T>, n: nat, key: T -> int)
    requires IsSortedWindow(w, rows, 0, n, key)
    ensures multiset(w) <= multiset(rows)
    ensures forall c, i :: c in multiset(rows) - multiset(w) && 0 <= i < |w| ==> key(w[i]) <= key(c)
    ensures |rows| <= n ==> multiset(w) == multiset(rows)
  {
    var o :| multiset(o) == multiset(rows) && SortedBy(o, key) && w == Queries.Window(o, 0, n);
    WindowIsPrefix(o, n);
    SortedTailBound(o, |w|, key);
    forall c, i | c in multiset(rows) - multiset(w) && 0 <= i < |w|
      ensures key(w[i]) <= key(c)
    {
      assert w[i] == o[i];
    }
  }

  /** A window at offset 0 is a prefix, and the rows split between it and
      the rest. */
  lemma WindowIsPrefix<T>(o: seq<T>, n: nat)
    ensures var w := Queries.Window(o, 0, n);
            && w == o[..|w|]
            && multiset(o) == multiset(w) + multiset(o[|w|..])
  {
    var w := Queries.Window(o, 0, n);
    assert w == o[..|w|];
    assert o == w + o[|w|..];
  }

  /** In a sorted list every element after position `m` has a key no
      smaller than any element before it. */
  lemma SortedTailBound<T>(o: seq<T>, m: nat, key: T -> int)
    requires m <= |o|
    requires SortedBy(o, key)
    ensures forall c, i :: c in multiset(o[m..]) && 0 <= i < m ==> key(o[i]) <= key(c)
  {
    forall c, i | c in multiset(o[m..]) && 0 <= i < m
      ensures key(o[i]) <= key(c)
    {
      var j :| 0 <= j < |o[m..]| && o[m..][j] == c;
      assert o[m + j] == c;
    }
  }
}

=== FILE: queries.dfy ===
/** The pieces of an SQL query the handlers use, over a table held as a
    sequence of rows: `WHERE` (Filter), `COUNT(*)` (the length of a
    filtered table) and `OFFSET … LIMIT …` (Window). */
module Queries {

  /** The rows of `s` that satisfy `p`, in their original order. */
  function Filter<T(!new)>(s: seq<T>, p: T -> bool): (r: seq<T>)
    ensures |r| <= |s|
    ensures forall x :: x in r <==> x in s && p(x)
    ensures forall x {:trigger p(x)} :: multiset(r)[x] == if p(x) then multiset(s)[x] else 0
  {
    if s == [] then []
    else
      var tail := Filter(s[1..], p);
      assert s == [s[0]] + s[1..];
      if p(s[0]) then [s[0]] + tail else tail
  }

  /** Filtering by two predicates that split `all` between them splits its
      count the same way: `COUNT(all) == COUNT(a) + COUNT(b)`. */
  lemma {:induction false} FilterPartition<T(!new)>(s: seq<T>, all: T -> bool, a: T -> bool, b: T -> bool)
    requires forall x :: all(x) <==> a(x) || b(x)
    requires forall x :: !(a(x) && b(x))
    ensures |Filter(s, all)| == |Filter(s, a)| + |Filter(s, b)|
  {
    if s != [] {
      FilterPartition(s[1..], all, a, b);
    }
  }

  /** No row occurs twice. */
  predicate Distinct<T(==)>(s: seq<T>) {
    forall i, j :: 0 <= i < j < |s| ==> s[i] != s[j]
  }

  /** Filtering keeps rows distinct. */
  lemma {:induction false} FilterDistinct<T(!new)>(s: seq<T>, p: T -> bool)
    requires Distinct(s)
    ensures Distinct(Filter(s, p))
  {
    if s != [] {
      FilterDistinct(s[1..], p);
      assert s == [s[0]] + s[1..];
      assert s[0] !in s[1..];
    }
  }

  /** A list without repetitions has as many elements as its set. */
  lemma {:induction false} DistinctLength<T>(s: seq<T>)
    requires Distinct(s)
    ensures |set x | x in s| == |s|
  {
    if s != [] {
      var tail := s[1..];
      assert Distinct(tail) by {
        forall i, j | 0 <= i < j < |tail|
          ensures tail[i] != tail[j]
        {
          assert tail[i] == s[i + 1] && tail[j] == s[j + 1];
        }
      }
      DistinctLength(tail);
      assert s == [s[0]] + tail;
      assert (set x | x in s) == {s[0]} + (set x | x in tail);
      assert s[0] !in (set x | x in tail);
    }
  }

  /** `OFFSET offset LIMIT limit`: at most `limit` rows, starting at
      position `offset`; none when `offset` is past the end. */
  function Window<T>(s: seq<T>, offset: nat, limit: nat): (r: seq<T>)
    ensures |r| == if offset >= |s| then 0 else if |s| - offset < limit then |s| - offset else limit
    ensures forall i :: 0 <= i < |r| ==> r[i] == s[offset + i]
  {
    var rest := if offset <= |s| then s[offset..] else [];
    if limit <= |rest| then rest[..limit] else rest
  }

  function Min(a: int, b: int): int {
    if a <= b then a else b
  }
}

=== FILE: routes.dfy ===
/** The API handlers as pure functions of the store, the current instant
    and the request. A handler that changes the table returns the new table
    together with its response; a rejected request leaves the table as it
    was. */
module Routes {
  import opened Options
  import opened Database
  import Text
  import Ordering
  import Queries

  /** The `capsules` table: rows by primary key, and the order in which
      they were inserted, which is the order a scan of the table yields. */
  datatype Store = Store(records: map<Id, Capsule>, order: seq<Id>)

  /** Every row is listed once in the insertion order, and is stored under
      its own id. */
  ghost predicate Valid(st: Store) {
    && Queries.Distinct(st.order)
    && (forall id :: id in st.records <==> id in st.order)
    && (forall id :: id in st.records ==> st.records[id].id == id)
  }

  function RecordsOf(order: seq<Id>, records: map<Id, Capsule>): (r: seq<Capsule>)
    ensures |r| <= |order|
    ensures forall i :: 0 <= i < |r| ==> r[i] in records.Values
    ensures forall i :: 0 <= i < |order| && order[i] in records ==> records[order[i]] in r
  {
    if order == [] then []
    else
      var tail := RecordsOf(order[1..], records);
      assert forall i :: 1 <= i < |order| ==> order[i] == order[1..][i - 1];
      if order[0] in records then [records[order[0]]] + tail else tail
  }

  /** A scan of the table, in insertion order. */
  function Records(st: Store): seq<Capsule> {
    RecordsOf(st.order, st.records)
  }

  /** In a valid store the scan yields exactly the stored rows. */
  lemma RecordsCoverStore(st: Store)
    requires Valid(st)
    ensures forall c :: c in Records(st) <==> c in st.records.Values
  {
    forall c | c in st.records.Values
      ensures c in Records(st)
    {
      var id :| id in st.records && st.records[id] == c;
      var i :| 0 <= i < |st.order| && st.order[i] == id;
    }
  }

  /** A scan of distinct ids, each row stored under its own id, yields no
      row twice, and only rows whose ids it scanned. */
  lemma {:induction false} RecordsOfDistinct(order: seq<Id>, records: map<Id, Capsule>)
    requires Queries.Distinct(order)
    requires forall id :: id in records ==> records[id].id == id
    ensures Queries.Distinct(RecordsOf(order, records))
    ensures forall i :: 0 <= i < |RecordsOf(order, records)| ==> RecordsOf(order, records)[i].id in order
  {
    if order != [] {
      var tail := order[1..];
      assert Queries.Distinct(tail) by {
        forall i, j | 0 <= i < j < |tail|
          ensures tail[i] != tail[j]
        {
          assert tail[i] == order[i + 1] && tail[j] == order[j + 1];
        }
      }
      RecordsOfDistinct(tail, records);
      assert order[0] !in tail;
      var rest := RecordsOf(tail, records);
      assert forall i :: 0 <= i < |rest| ==> rest[i].id in order;
    }
  }

  /** In a valid store a count over the scan counts matching stored rows:
      the filtered scan lists each of them exactly once, so its length is
      the number of stored rows that satisfy `p`. */
  lemma CountIsStoredMatches(st: Store, p: Capsule -> bool)
    requires Valid(st)
    ensures Queries.Distinct(Queries.Filter(Records(st), p))
    ensures forall c :: c in Queries.Filter(Records(st), p) <==> c in st.records.Values && p(c)
    ensures |Queries.Filter(Records(st), p)| == |set c | c in st.records.Values && p(c)|
  {
    var rows := Queries.Filter(Records(st), p);
    RecordsOfDistinct(st.order, st.records);
    Queries.FilterDistinct(Records(st), p);
    FilteredScanMembers(st, p);
    Queries.DistinctLength(rows);
    SameMembersSameSet(rows, st.records.Values, p);
  }

  /** In a valid store the filtered scan holds exactly the matching stored
      rows. */
  lemma FilteredScanMembers(st: Store, p: Capsule -> bool)
    requires Valid(st)
    ensures forall c :: c in Queries.Filter(Records(st), p) <==> c in st.records.Values && p(c)
  {
    RecordsCoverStore(st);
  }

  /** Lists with the same members have the same set. */
  lemma SameMembersSameSet(rows: seq<Capsule>, values: set<Capsule>, p: Capsule -> bool)
    requires forall c :: c in rows <==> c in values && p(c)
    ensures (set c | c in rows) == (set c | c in values && p(c))
  {
  }

  /** The errors a handler answers with instead of a result: 400 for the
      first four, 404 and 403 for the last two. */
  datatype Error =
    | NoData
    | MissingField(field: string)
    | InvalidUnlockDate
    | UnlockDateNotInFuture
    | NotFound
    | Private

  datatype Result<T> = Ok(value: T) | Err(error: Error)

  /** What a handler that may write leaves behind: the table and the
      response. */
  datatype Reply<T> = Reply(store: Store, result: Result<T>)

  /** Python truthiness of an optional string: present and non-empty. */
  predicate Truthy(f: Option<string>) {
    f.Some? && f.value != []
  }

  // ---------------------------------------------------------------- create

  /** The `tags` value of a create request: a JSON list, a string, or null. */
  datatype TagsInput = TagList(items: seq<string>) | TagText(text: string) | TagNull

  /** The JSON body of a create request. `None` stands for a key that is
      absent or null, which the handler treats alike (an explicit null
      `tags` is `Some(TagNull)`, the one null kept apart). `otherKeys`
      records whether the body holds some key these fields do not show: an
      unknown key, or a known key whose value is null. */
  datatype CreateRequest = CreateRequest(
    title: Option<string>,
    content: Option<string>,
    contentType: Option<string>,
    creatorName: Option<string>,
    creatorEmail: Option<string>,
    unlockDate: Option<string>,
    tags: Option<TagsInput>,
    isPublic: Option<bool>,
    otherKeys: bool)

  /** A body without any key, the only dictionary Python reads as falsy. */
  predicate EmptyBody(req: CreateRequest) {
    && req.title.None? && req.content.None? && req.contentType.None?
    && req.creatorName.None? && req.creatorEmail.None? && req.unlockDate.None?
    && req.tags.None? && req.isPublic.None? && !req.otherKeys
  }

  predicate RequiredPresent(req: CreateRequest) {
    Truthy(req.title) && Truthy(req.content) && Truthy(req.creatorName) && Truthy(req.unlockDate)
  }

  /** The keys `create_capsule` requires, in the order it checks them. */
  const RequiredFields: seq<string> := ["title", "content", "creator_name", "unlock_date"]

  /** The request's value under a required key. */
  function RequiredValue(req: CreateRequest, name: string): Option<string> {
    if name == "title" then req.title
    else if name == "content" then req.content
    else if name == "creator_name" then req.creatorName
    else if name == "unlock_date" then req.unlockDate
    else None
  }

  /** The check loop over `names`: the first key whose value is absent or
      empty, or none when every key has a value. */
  function FirstMissingIn(req: CreateRequest, names: seq<string>): (r: Option<string>)
    ensures r.None? <==> forall k :: 0 <= k < |names| ==> Truthy(RequiredValue(req, names[k]))
    ensures r.Some? ==>
              exists k :: && 0 <= k < |names| && names[k] == r.value
                          && !Truthy(RequiredValue(req, names[k]))
                          && forall j :: 0 <= j < k ==> Truthy(RequiredValue(req, names[j]))
  {
    if names == [] then None
    else if !Truthy(RequiredValue(req, names[0])) then Some(names[0])
    else
      var r := FirstMissingIn(req, names[1..]);
      assert forall k :: 1 <= k < |names| ==> names[k] == names[1..][k - 1];
      if r.Some? then
        var k :| && 0 <= k < |names[1..]| && names[1..][k] == r.value
                 && !Truthy(RequiredValue(req, names[1..][k]))
                 && forall j :: 0 <= j < k ==> Truthy(RequiredValue(req, names[1..][j]));
        assert names[k + 1] == r.value;
        r
      else r
  }

  /** The first required key, in the order they are checked, that is absent
      or empty. */
  function FirstMissing(req: CreateRequest): (r: Option<string>)
    ensures r.None? <==> RequiredPresent(req)
    ensures r.Some? ==>
              exists k :: && 0 <= k < |RequiredFields| && RequiredFields[k] == r.value
                          && !Truthy(RequiredValue(req, RequiredFields[k]))
                          && forall j :: 0 <= j < k ==> Truthy(RequiredValue(req, RequiredFields[j]))
  {
    var r := FirstMissingIn(req, RequiredFields);
    assert RequiredValue(req, RequiredFields[0]) == req.title;
    assert RequiredValue(req, RequiredFields[1]) == req.content;
    assert RequiredValue(req, RequiredFields[2]) == req.creatorName;
    assert RequiredValue(req, RequiredFields[3]) == req.unlockDate;
    r
  }

  /** The check loop names the same key as testing title, content,
      creator_name and unlock_date one after the other. */
  lemma FirstMissingInOrder(req: CreateRequest)
    ensures FirstMissing(req) ==
              if !Truthy(req.title) then Some("title")
              else if !Truthy(req.content) then Some("content")
              else if !Truthy(req.creatorName) then Some("creator_name")
              else if !Truthy(req.unlockDate) then Some("unlock_date")
              else None
  {
    var n0 := RequiredFields;
    var n1, n2, n3 := n0[1..], n0[2..], n0[3..];
    assert n1 == ["content", "creator_name", "unlock_date"] && n2 == ["creator_name", "unlock_date"];
    assert n3 == ["unlock_date"] && n3[1..] == [];
    assert FirstMissingIn(req, n3) == if !Truthy(req.unlockDate) then Some("unlock_date") else None;
    assert n2[1..] == n3;
    assert FirstMissingIn(req, n2) ==
             if !Truthy(req.creatorName) then Some("creator_name") else FirstMissingIn(req, n3);
    assert n1[1..] == n2;
    assert FirstMissingIn(req, n1) == if !Truthy(req.content) then Some("content") else FirstMissingIn(req, n2);
    assert n0[1..] == n1;
    assert FirstMissingIn(req, n0) == if !Truthy(req.title) then Some("title") else FirstMissingIn(req, n1);
  }

  /** `parse_datetime`: an empty string parses to nothing; anything else is
      handed to the ISO-8601 parser `parse`. */
  function ParseDatetime(parse: string -> Option<Instant>, s: string): Option<Instant> {
    if s == [] then None else parse(s)
  }

  /** The stored form of the request's tags: a list is comma-joined, a
      string is kept as given, null stays null, and an absent key is the
      join of the empty list. */
  function StoredTags(tags: Option<TagsInput>): Option<string>
  {
    match tags
    case None => Some(Text.Join([], ','))
    case Some(TagList(xs)) => Some(Text.Join(xs, ','))
    case Some(TagText(s)) => Some(s)
    case Some(TagNull) => None
  }

  /** What `to_dict` shows of the stored tags: a list of comma-free tags
      comes back as given (except that `[]` and `[""]` both show as no
      tags), a string is split at its commas, and an absent key or a null
      shows no tags. */
  lemma StoredTagsShown(tags: Option<TagsInput>)
    ensures tags.None? || tags == Some(TagNull) ==> ProjectTags(StoredTags(tags)) == []
    ensures tags.Some? && tags.value.TagList? && (forall p :: p in tags.value.items ==> ',' !in p) ==>
              var xs := tags.value.items;
              ProjectTags(StoredTags(tags)) == if xs == [] || xs == [[]] then [] else xs
    ensures tags.Some? && tags.value.TagText? ==> ProjectTags(StoredTags(tags)) == ProjectTags(Some(tags.value.text))
  {
    if tags.Some? && tags.value.TagList? && (forall p :: p in tags.value.items ==> ',' !in p) {
      TagsRoundTrip(tags.value.items);
    }
    if tags.None? {
      Text.JoinEmpty([], ',');
    }
  }


  /** `create_capsule`: validates the body, then inserts one new row under
      `freshId` (the generated UUID) with layout defaults drawn from
      `draws`, and answers with the new capsule without its content. */
  function CreateCapsule(st: Store, now: Instant, req: CreateRequest, parse: string -> Option<Instant>,
                         freshId: Id, draws: Draws): (r: Reply<View>)
    requires freshId !in st.records
    requires UnitDraws(draws)
    ensures r.result.Err? ==> r.store == st
    ensures r.result == Err(NoData) <==> EmptyBody(req)
    ensures r.result == Err(MissingField("title")) <==> !EmptyBody(req) && !Truthy(req.title)
    ensures r.result == Err(MissingField("content")) <==>
              Truthy(req.title) && !Truthy(req.content)
    ensures r.result == Err(MissingField("creator_name")) <==>
              Truthy(req.title) && Truthy(req.content) && !Truthy(req.creatorName)
    ensures r.result == Err(MissingField("unlock_date")) <==>
              Truthy(req.title) && Truthy(req.content) && Truthy(req.creatorName) && !Truthy(req.unlockDate)
    ensures r.result == Err(InvalidUnlockDate) <==>
              RequiredPresent(req) && parse(req.unlockDate.value).None?
    ensures r.result == Err(UnlockDateNotInFuture) <==>
              RequiredPresent(req) && parse(req.unlockDate.value).Some? && parse(req.unlockDate.value).value <= now
    ensures r.result.Ok? <==>
              RequiredPresent(req) && parse(req.unlockDate.value).Some? && parse(req.unlockDate.value).value > now
    ensures r.result.Ok? ==>
              && r.store.records.Keys == st.records.Keys + {freshId}
              && r.store.order == st.order + [freshId]
              && forall id :: id in st.records ==> r.store.records[id] == st.records[id]
    ensures r.result.Ok? ==>
              var c := r.store.records[freshId];
              && c.id == freshId
              && c.title == req.title.value
              && c.content == req.content.value
              && c.creatorName == req.creatorName.value
              && c.creatorEmail == req.creatorEmail
              && c.contentType == req.contentType.GetOr("text")
              && c.isPublic == req.isPublic.GetOr(true)
              && c.tags == StoredTags(req.tags)
              && c.createdAt == now
              && parse(req.unlockDate.value) == Some(c.unlockDate)
              && now < c.unlockDate
              && 10.0 <= c.fragment.x <= 90.0 && 10.0 <= c.fragment.y <= 90.0
              && -15.0 <= c.fragment.rotation <= 15.0 && 0.8 <= c.fragment.scale <= 1.2
    ensures r.result.Ok? ==>
              && r.result.value == ToDict(r.store.records[freshId], now, false)
              && r.result.value.id == freshId
              && r.result.value.content.None?
              && r.result.value.timeRemaining.Some?
  {
    FirstMissingInOrder(req);
    if EmptyBody(req) then Reply(st, Err(NoData))
    else if FirstMissing(req).Some? then Reply(st, Err(MissingField(FirstMissing(req).value)))
    else match ParseDatetime(parse, req.unlockDate.value)
      case None => Reply(st, Err(InvalidUnlockDate))
      case Some(unlock) =>
        if unlock <= now then Reply(st, Err(UnlockDateNotInFuture))
        else
          var init := Init(None, req.title.value, req.content.value, req.contentType.GetOr("text"),
                           req.creatorName.value, req.creatorEmail, StoredTags(req.tags), now, unlock,
                           req.isPublic.GetOr(true), None, None, None, None);
          var c := NewCapsule(init, freshId, draws);
          Reply(Store(st.records[freshId := c], st.order + [freshId]), Ok(ToDict(c, now, false)))
  }

  /** Creating keeps the store valid. */
  lemma CreatePreservesValid(st: Store, now: Instant, req: CreateRequest, parse: string -> Option<Instant>,
                             freshId: Id, draws: Draws)
    requires Valid(st)
    requires freshId !in st.records
    requires UnitDraws(draws)
    ensures Valid(CreateCapsule(st, now, req, parse, freshId, draws).store)
  {
    var r := CreateCapsule(st, now, req, parse, freshId, draws);
    if r.result.Ok? {
      assert freshId !in st.order;
      assert forall i :: 0 <= i < |st.order| ==> r.store.order[i] == st.order[i];
    }
  }

  // ------------------------------------------------------------------- get

  /** `get_capsule`: 404 for an unknown id, 403 for a private capsule
      whatever its unlock state, otherwise the capsule with its content
      exactly when it is unlocked. */
  function GetCapsule(st: Store, now: Instant, id: Id): (r: Result<View>)
    ensures r == Err(NotFound) <==> id !in st.records
    ensures r == Err(Private) <==> id in st.records && !st.records[id].isPublic
    ensures r.Ok? <==> id in st.records && st.records[id].isPublic
    ensures r.Ok? ==> r.value == ToDict(st.records[id], now, IsUnlocked(st.records[id], now))
    ensures r.Ok? ==>
              && id in st.records
              && var c := st.records[id];
              && r.value.id == c.id && r.value.title == c.title && r.value.isPublic
              && (r.value.content == Some(c.content) <==> IsUnlocked(c, now))
              && (r.value.timeRemaining.Some? <==> !IsUnlocked(c, now))
  {
    if id !in st.records then Err(NotFound)
    else
      var c := st.records[id];
      if !c.isPublic then Err(Private)
      else Ok(ToDict(c, now, IsUnlocked(c, now)))
  }

  /** A public capsule created at one instant can be fetched at any later
      instant, locked (with a countdown) until its unlock instant and with
      its content from then on. */
  lemma CreateThenGet(st: Store, now: Instant, req: CreateRequest, parse: string -> Option<Instant>,
                      freshId: Id, draws: Draws, later: Instant)
    requires freshId !in st.records
    requires UnitDraws(draws)
    requires CreateCapsule(st, now, req, parse, freshId, draws).result.Ok?
    requires req.isPublic.GetOr(true)
    ensures var r := CreateCapsule(st, now, req, parse, freshId, draws);
            var g := GetCapsule(r.store, later, freshId);
            && g.Ok?
            && (g.value.content == Some(req.content.value) <==> later >= parse(req.unlockDate.value).value)
            && (g.value.timeRemaining.Some? <==> later < parse(req.unlockDate.value).value)
  {
  }

  // ------------------------------------------------------------ time zones

  /** What the date parser reads from an ISO-8601 string: the instant it
      denotes and the UTC offset it was written with, in seconds (0 for `Z`
      or no offset). */
  datatype ParsedDate = ParsedDate(instant: Instant, offset: int)

  /** The string's wall-clock reading taken as UTC. A `DateTime` column
      without a time zone keeps only these fields of an aware value, and a
      reload reads them back as UTC. */
  function WallClock(p: ParsedDate): Instant {
    p.instant + p.offset
  }

  /** The unlock date `create_capsule` stores as written: the future check
      compares the aware instant, but the column keeps the wall-clock
      reading. `None` when the check rejects the date. */
  function AcceptedUnlockAsWritten(p: ParsedDate, now: Instant): (u: Option<Instant>)
    ensures u.Some? <==> now < p.instant
    ensures u.Some? ==> u.value == p.instant + p.offset
  {
    if p.instant <= now then None else Some(WallClock(p))
  }

  /** As written, a date with a negative offset of at least its distance
      into the future passes the check yet is stored already reached: the
      new capsule is unlocked at once, and its answer has no countdown. */
  lemma OffsetUnlocksEarly(p: ParsedDate, now: Instant, c: Capsule)
    requires now < p.instant
    requires p.offset <= now - p.instant
    ensures AcceptedUnlockAsWritten(p, now).Some?
    ensures var stored := c.(unlockDate := AcceptedUnlockAsWritten(p, now).value);
            IsUnlocked(stored, now) && ToDict(stored, now, false).timeRemaining.None?
  {
  }

  /** The case in figures: at 12:00Z, `T10:00:00-05:00` is 15:00Z and passes
      the check, but is stored as 10:00, two hours before now. */
  lemma OffsetUnlocksEarlyExample()
    ensures AcceptedUnlockAsWritten(ParsedDate(15 * 3600, -5 * 3600), 12 * 3600) == Some(10 * 3600)
  {
  }

  /** The unlock date as intended: the instant the future check accepted,
      so a new capsule is always still locked. */
  function AcceptedUnlock(p: ParsedDate, now: Instant): (u: Option<Instant>)
    ensures u.Some? <==> now < p.instant
    ensures u.Some? ==> u.value == p.instant && now < u.value
  {
    if p.instant <= now then None else Some(p.instant)
  }

  /** The two agree exactly on dates written in UTC. */
  lemma AcceptedUnlockAgreesInUtc(p: ParsedDate, now: Instant)
    requires now < p.instant
    ensures AcceptedUnlockAsWritten(p, now) == AcceptedUnlock(p, now) <==> p.offset == 0
  {
  }

  /** `CreateCapsule` stores the intended unlock date: its `parse` yields the
      instant, whatever offset the string carried. */
  lemma CreateStoresAcceptedUnlock(st: Store, now: Instant, req: CreateRequest, parse: string -> Option<Instant>,
                                   freshId: Id, draws: Draws, offset: int)
    requires freshId !in st.records
    requires UnitDraws(draws)
    requires CreateCapsule(st, now, req, parse, freshId, draws).result.Ok?
    ensures var r := CreateCapsule(st, now, req, parse, freshId, draws);
            var p := ParsedDate(parse(req.unlockDate.value).value, offset);
            && AcceptedUnlock(p, now) == Some(r.store.records[freshId].unlockDate)
            && !IsUnlocked(r.store.records[freshId], now)
  {
  }

  // ---------------------------------------------------------------- delete

  /** `delete_capsule`: removes exactly the row `id`, or answers 404 and
      changes nothing. */
  function DeleteCapsule(st: Store, id: Id): (r: Reply<()>)
    ensures id !in st.records ==> r == Reply(st, Err(NotFound))
    ensures id in st.records ==>
              && r.result.Ok?
              && r.store.records.Keys == st.records.Keys - {id}
              && (forall other :: other in r.store.records ==> r.store.records[other] == st.records[other])
              && (forall other :: other in r.store.order <==> other in st.order && other != id)
  {
    if id !in st.records then Reply(st, Err(NotFound))
    else Reply(Store(st.records - {id}, Queries.Filter(st.order, other => other != id)), Ok(()))
  }

  /** Deleting keeps the store valid. */
  lemma DeletePreservesValid(st: Store, id: Id)
    requires Valid(st)
    ensures Valid(DeleteCapsule(st, id).store)
  {
    if id in st.records {
      Queries.FilterDistinct(st.order, other => other != id);
    }
  }

  /** After a successful delete the id is gone for every later fetch. */
  lemma DeleteThenGet(st: Store, id: Id, now: Instant)
    requires DeleteCapsule(st, id).result.Ok?
    ensures GetCapsule(DeleteCapsule(st, id).store, now, id) == Err(NotFound)
  {
  }

  // -------------------------------------------------------- update position

  /** The body of a position update; each fragment field may be absent. */
  datatype PositionPatch = PositionPatch(x: Option<real>, y: Option<real>, rotation: Option<real>, scale: Option<real>)

  const MinPosition: real := 0.0
  const MaxPosition: real := 100.0
  const MinRotation: real := -30.0
  const MaxRotation: real := 30.0
  const MinScale: real := 0.5
  const MaxScale: real := 1.5

  /** `max(lo, min(hi, v))`. */
  function Clamp(v: real, lo: real, hi: real): (r: real)
    requires lo <= hi
    ensures lo <= r <= hi
    ensures lo <= v <= hi ==> r == v
    ensures v < lo ==> r == lo
    ensures hi < v ==> r == hi
  {
    var m := if v < hi then v else hi;
    if lo < m then m else lo
  }

  /** Clamping a clamped value changes nothing. */
  lemma ClampIdempotent(v: real, lo: real, hi: real)
    requires lo <= hi
    ensures Clamp(Clamp(v, lo, hi), lo, hi) == Clamp(v, lo, hi)
  {
  }

  /** `r` is `v` brought into [lo, hi]: `v` itself when inside, otherwise
      the nearer bound. */
  predicate ClampedTo(r: real, v: real, lo: real, hi: real) {
    && lo <= r <= hi
    && (lo <= v <= hi ==> r == v)
    && (v < lo ==> r == lo)
    && (hi < v ==> r == hi)
  }

  /** The layout after a patch: each supplied field clamped to its range,
      each omitted field as before. */
  function ApplyPatch(f: Fragment, patch: PositionPatch): (g: Fragment)
    ensures patch.x.Some? ==> ClampedTo(g.x, patch.x.value, MinPosition, MaxPosition)
    ensures patch.y.Some? ==> ClampedTo(g.y, patch.y.value, MinPosition, MaxPosition)
    ensures patch.rotation.Some? ==> ClampedTo(g.rotation, patch.rotation.value, MinRotation, MaxRotation)
    ensures patch.scale.Some? ==> ClampedTo(g.scale, patch.scale.value, MinScale, MaxScale)
    ensures patch.x.None? ==> g.x == f.x
    ensures patch.y.None? ==> g.y == f.y
    ensures patch.rotation.None? ==> g.rotation == f.rotation
    ensures patch.scale.None? ==> g.scale == f.scale
  {
    var x := if patch.x.Some? then Clamp(patch.x.value, MinPosition, MaxPosition) else f.x;
    var y := if patch.y.Some? then Clamp(patch.y.value, MinPosition, MaxPosition) else f.y;
    var rotation := if patch.rotation.Some? then Clamp(patch.rotation.value, MinRotation, MaxRotation) else f.rotation;
    var scale := if patch.scale.Some? then Clamp(patch.scale.value, MinScale, MaxScale) else f.scale;
    Fragment(x, y, rotation, scale)
  }

  /** `update_capsule_position`: 404 for an unknown id; otherwise only the
      supplied layout fields of that one capsule change, each to a value
      within its clamp range, and the answer shows the new layout. */
  function UpdatePosition(st: Store, now: Instant, id: Id, patch: PositionPatch): (r: Reply<View>)
    ensures id !in st.records ==> r == Reply(st, Err(NotFound))
    ensures id in st.records ==>
              && r.result.Ok?
              && r.store.order == st.order
              && r.store.records.Keys == st.records.Keys
              && (forall other :: other in st.records && other != id ==> r.store.records[other] == st.records[other])
              && var before := st.records[id];
              && var after := r.store.records[id];
              && after == before.(fragment := after.fragment)
              && after.fragment == ApplyPatch(before.fragment, patch)
              && (patch.x.Some? ==> MinPosition <= after.fragment.x <= MaxPosition)
              && (patch.y.Some? ==> MinPosition <= after.fragment.y <= MaxPosition)
              && (patch.rotation.Some? ==> MinRotation <= after.fragment.rotation <= MaxRotation)
              && (patch.scale.Some? ==> MinScale <= after.fragment.scale <= MaxScale)
              && (patch.x.None? ==> after.fragment.x == before.fragment.x)
              && (patch.y.None? ==> after.fragment.y == before.fragment.y)
              && (patch.rotation.None? ==> after.fragment.rotation == before.fragment.rotation)
              && (patch.scale.None? ==> after.fragment.scale == before.fragment.scale)
              && r.result.value == ToDict(after, now, IsUnlocked(after, now))
              && r.result.value.fragment == after.fragment
              && (r.result.value.content.Some? <==> IsUnlocked(after, now))
  {
    if id !in st.records then Reply(st, Err(NotFound))
    else
      var c := st.records[id];
      var updated := c.(fragment := ApplyPatch(c.fragment, patch));
      Reply(Store(st.records[id := updated], st.order), Ok(ToDict(updated, now, IsUnlocked(updated, now))))
  }

  /** Sending the same position update twice leaves the table as sending it
      once. */
  lemma UpdatePositionIdempotent(st: Store, now: Instant, later: Instant, id: Id, patch: PositionPatch)
    ensures var once := UpdatePosition(st, now, id, patch).store;
            UpdatePosition(once, later, id, patch).store == once
  {
    if id in st.records {
      var f := st.records[id].fragment;
      var g := ApplyPatch(f, patch);
      if patch.x.Some? { ClampIdempotent(patch.x.value, MinPosition, MaxPosition); }
      if patch.y.Some? { ClampIdempotent(patch.y.value, MinPosition, MaxPosition); }
      if patch.rotation.Some? { ClampIdempotent(patch.rotation.value, MinRotation, MaxRotation); }
      if patch.scale.Some? { ClampIdempotent(patch.scale.value, MinScale, MaxScale); }
      assert ApplyPatch(g, patch) == g;
    }
  }

  /** Updating a position keeps the store valid. */
  lemma UpdatePreservesValid(st: Store, now: Instant, id: Id, patch: PositionPatch)
    requires Valid(st)
    ensures Valid(UpdatePosition(st, now, id, patch).store)
  {
  }

  // -------------------------------------------------------------- listings

  /** `ORDER BY created_at DESC` is ascending order of this key. */
  function NewestKey(c: Capsule): int {
    -c.createdAt
  }

  /** `ORDER BY unlock_date ASC` is ascending order of this key. */
  function SoonestKey(c: Capsule): int {
    c.unlockDate
  }

  /** Newest first, by creation instant. */
  function NewestFirst(s: seq<Capsule>): (r: seq<Capsule>)
    ensures multiset(r) == multiset(s)
    ensures Ordering.SortedBy(r, NewestKey)
    ensures forall i, j :: 0 <= i < j < |r| ==> r[i].createdAt >= r[j].createdAt
  {
    var r := Ordering.SortBy(s, NewestKey);
    assert forall i, j :: 0 <= i < j < |r| ==> NewestKey(r[i]) <= NewestKey(r[j]);
    r
  }

  /** Soonest unlock first. */
  function SoonestFirst(s: seq<Capsule>): (r: seq<Capsule>)
    ensures multiset(r) == multiset(s)
    ensures Ordering.SortedBy(r, SoonestKey)
    ensures forall i, j :: 0 <= i < j < |r| ==> r[i].unlockDate <= r[j].unlockDate
  {
    var r := Ordering.SortBy(s, SoonestKey);
    assert forall i, j :: 0 <= i < j < |r| ==> SoonestKey(r[i]) <= SoonestKey(r[j]);
    r
  }

  /** The query string of `GET /capsules`. */
  datatype ListQuery = ListQuery(
    tag: Option<string>,
    search: Option<string>,
    contentType: Option<string>,
    limit: Option<nat>,
    offset: Option<nat>)

  /** The listing answer: one page of capsules, the number of all matches,
      and the limit and offset in effect. */
  datatype Page = Page(items: seq<View>, total: nat, limit: nat, offset: nat)

  /** The `WHERE` clause of `GET /capsules`: public, and each filter that is
      given holds. The tag filter looks for the tag anywhere in the stored
      comma-joined string; the search looks in the title or the content.
      Both are `LIKE` comparisons, so both see the strings after the
      engine's case folding `fold` (SQLite, the default engine, ignores
      ASCII case in `LIKE` and lowers both sides for `ilike`). */
  predicate MatchesQuery(q: ListQuery, fold: string -> string, c: Capsule) {
    && c.isPublic
    && (Truthy(q.tag) ==> c.tags.Some? && Text.Contains(fold(c.tags.value), fold(q.tag.value)))
    && (Truthy(q.search) ==>
          || Text.Contains(fold(c.title), fold(q.search.value))
          || Text.Contains(fold(c.content), fold(q.search.value)))
    && (Truthy(q.contentType) ==> c.contentType == q.contentType.value)
  }

  /** All rows the listing's filters select. */
  function Matching(st: Store, q: ListQuery, fold: string -> string): seq<Capsule> {
    Queries.Filter(Records(st), (c: Capsule) => MatchesQuery(q, fold, c))
  }

  /** One page of `rows`, newest first: `ORDER BY created_at DESC OFFSET
      offset LIMIT limit`, which is the window at `offset` of some
      newest-first arrangement of the rows (SQL leaves ties open). */
  function NewestPage(rows: seq<Capsule>, offset: nat, limit: nat): (page: seq<Capsule>)
    ensures |page| == if offset >= |rows| then 0 else Queries.Min(limit, |rows| - offset)
    ensures forall i :: 0 <= i < |page| ==> page[i] in rows
    ensures forall i, j :: 0 <= i < j < |page| ==> page[i].createdAt >= page[j].createdAt
    ensures Ordering.IsSortedWindow(page, rows, offset, limit, NewestKey)
  {
    var ordered := NewestFirst(rows);
    var page := Queries.Window(ordered, offset, limit);
    assert forall i :: 0 <= i < |page| ==> page[i] in multiset(ordered);
    assert multiset(ordered) == multiset(rows) && Ordering.SortedBy(ordered, NewestKey)
           && page == Queries.Window(ordered, offset, limit);
    page
  }

  /** One page of `rows`, soonest unlock first: `ORDER BY unlock_date ASC
      LIMIT limit`, which is the first `limit` rows of some soonest-first
      arrangement of the rows. */
  function SoonestPage(rows: seq<Capsule>, limit: nat): (page: seq<Capsule>)
    ensures |page| == Queries.Min(limit, |rows|)
    ensures forall i :: 0 <= i < |page| ==> page[i] in rows
    ensures forall i, j :: 0 <= i < j < |page| ==> page[i].unlockDate <= page[j].unlockDate
    ensures Ordering.IsSortedWindow(page, rows, 0, limit, SoonestKey)
  {
    var ordered := SoonestFirst(rows);
    var page := Queries.Window(ordered, 0, limit);
    assert forall i :: 0 <= i < |page| ==> page[i] in multiset(ordered);
    assert multiset(ordered) == multiset(rows) && Ordering.SortedBy(ordered, SoonestKey)
           && page == Queries.Window(ordered, 0, limit);
    page
  }

  /** Each row projected by `to_dict`, with `withContent` deciding the
      `include_content` flag row by row. */
  function Show(page: seq<Capsule>, now: Instant, withContent: Capsule -> bool): seq<View> {
    seq(|page|, i requires 0 <= i < |page| => ToDict(page[i], now, withContent(page[i])))
  }

  /** The projections `get_capsules` answers with: each row with its
      content exactly when it is unlocked, in the rows' order. */
  function ShowListed(page: seq<Capsule>, now: Instant): (items: seq<View>)
    requires forall i :: 0 <= i < |page| ==> page[i].isPublic
    requires forall i, j :: 0 <= i < j < |page| ==> page[i].createdAt >= page[j].createdAt
    ensures |items| == |page|
    ensures forall i :: 0 <= i < |page| ==> items[i] == ToDict(page[i], now, IsUnlocked(page[i], now))
    ensures forall i :: 0 <= i < |items| ==>
              items[i].isPublic && (items[i].content.Some? <==> items[i].isUnlocked)
    ensures forall i, j :: 0 <= i < j < |items| ==> items[i].createdAt >= items[j].createdAt
  {
    Show(page, now, (c: Capsule) => IsUnlocked(c, now))
  }

  /** The page size in effect: the requested limit (50 if absent), at
      most 100. */
  function PageLimit(q: ListQuery): (n: nat)
    ensures n <= 100
    ensures q.limit.None? ==> n == 50
    ensures q.limit.Some? ==> n == q.limit.value || (n == 100 < q.limit.value)
  {
    Queries.Min(q.limit.GetOr(50), 100)
  }

  /** The rows on the requested page: matching rows, newest first, from
      the requested offset (0 if absent). */
  function QueryPage(st: Store, q: ListQuery, fold: string -> string): (page: seq<Capsule>)
    ensures var total := |Matching(st, q, fold)|;
            var offset := q.offset.GetOr(0);
            |page| == if offset >= total then 0 else Queries.Min(PageLimit(q), total - offset)
    ensures forall i :: 0 <= i < |page| ==> page[i] in Records(st) && MatchesQuery(q, fold, page[i])
    ensures forall i :: 0 <= i < |page| ==> page[i].isPublic
    ensures forall i, j :: 0 <= i < j < |page| ==> page[i].createdAt >= page[j].createdAt
    ensures Ordering.IsSortedWindow(page, Matching(st, q, fold), q.offset.GetOr(0), PageLimit(q), NewestKey)
  {
    var rows := Matching(st, q, fold);
    var page := NewestPage(rows, q.offset.GetOr(0), PageLimit(q));
    assert forall i :: 0 <= i < |page| ==> page[i] in rows;
    page
  }

  /** A first page large enough for every match lists every match. */
  lemma FirstPageHoldsEveryMatch(st: Store, q: ListQuery, fold: string -> string)
    requires q.offset.GetOr(0) == 0
    requires |Matching(st, q, fold)| <= PageLimit(q)
    ensures forall c :: c in Records(st) && MatchesQuery(q, fold, c) ==> c in QueryPage(st, q, fold)
  {
    var rows := Matching(st, q, fold);
    var ordered := NewestFirst(rows);
    var page := Queries.Window(ordered, 0, PageLimit(q));
    assert page == ordered;
    forall c | c in Records(st) && MatchesQuery(q, fold, c)
      ensures c in QueryPage(st, q, fold)
    {
      assert c in rows;
      assert c in multiset(ordered);
    }
  }

  /** `get_capsules`: the page of matching public capsules at `offset`,
      newest first, at most `limit` (default 50, at most 100) of them, each
      with its content exactly when it is unlocked; `total` counts every
      match, whatever the page. */
  function ListCapsules(st: Store, now: Instant, q: ListQuery, fold: string -> string): (p: Page)
    ensures q.limit.None? ==> p.limit == 50
    ensures q.limit.Some? ==> p.limit == Queries.Min(q.limit.value, 100)
    ensures p.offset == q.offset.GetOr(0)
    ensures p.total == |Matching(st, q, fold)|
    ensures |p.items| <= p.limit <= 100
    ensures |p.items| == if p.offset >= p.total then 0 else Queries.Min(p.limit, p.total - p.offset)
    ensures var page := QueryPage(st, q, fold);
            |p.items| == |page| &&
            forall i :: 0 <= i < |page| ==> p.items[i] == ToDict(page[i], now, IsUnlocked(page[i], now))
    ensures forall i :: 0 <= i < |p.items| ==>
              p.items[i].isPublic && (p.items[i].content.Some? <==> p.items[i].isUnlocked)
    ensures forall i, j :: 0 <= i < j < |p.items| ==> p.items[i].createdAt >= p.items[j].createdAt
  {
    var page := QueryPage(st, q, fold);
    Page(ShowListed(page, now), |Matching(st, q, fold)|, PageLimit(q), q.offset.GetOr(0))
  }

  function IsPublicRow(): Capsule -> bool {
    (c: Capsule) => c.isPublic
  }

  function IsPublicUnlocked(now: Instant): Capsule -> bool {
    (c: Capsule) => c.isPublic && IsUnlocked(c, now)
  }

  function IsPublicLocked(now: Instant): Capsule -> bool {
    (c: Capsule) => c.isPublic && !IsUnlocked(c, now)
  }

  /** The public capsules whose unlock instant has been reached. */
  function UnlockedRows(st: Store, now: Instant): seq<Capsule> {
    Queries.Filter(Records(st), IsPublicUnlocked(now))
  }

  /** The public capsules still locked. */
  function LockedRows(st: Store, now: Instant): seq<Capsule> {
    Queries.Filter(Records(st), IsPublicLocked(now))
  }

  /** Rows drawn from `UnlockedRows` are stored public capsules unlocked at `now`. */
  lemma UnlockedRowsShown(st: Store, now: Instant, page: seq<Capsule>)
    requires forall i :: 0 <= i < |page| ==> page[i] in UnlockedRows(st, now)
    ensures forall i :: 0 <= i < |page| ==> page[i] in Records(st) && page[i].isPublic && IsUnlocked(page[i], now)
  {
    forall i | 0 <= i < |page|
      ensures page[i] in Records(st) && page[i].isPublic && IsUnlocked(page[i], now)
    {
      assert IsPublicUnlocked(now)(page[i]);
    }
  }

  /** The rows `get_unlocked_capsules` shows: unlocked public capsules,
      newest first, at most `limit` (default 30, at most 100). */
  function UnlockedPage(st: Store, now: Instant, limit: Option<nat>): (page: seq<Capsule>)
    ensures |page| == Queries.Min(Queries.Min(limit.GetOr(30), 100), |UnlockedRows(st, now)|)
    ensures forall i :: 0 <= i < |page| ==> page[i] in Records(st) && page[i].isPublic && IsUnlocked(page[i], now)
    ensures forall i, j :: 0 <= i < j < |page| ==> page[i].createdAt >= page[j].createdAt
    ensures Ordering.IsSortedWindow(page, UnlockedRows(st, now), 0, Queries.Min(limit.GetOr(30), 100), NewestKey)
  {
    var rows := UnlockedRows(st, now);
    var page := NewestPage(rows, 0, Queries.Min(limit.GetOr(30), 100));
    UnlockedRowsShown(st, now, page);
    page
  }

  /** `get_unlocked_capsules`: unlocked public capsules, newest first, with
      their content, at most `limit` (default 30, at most 100) of them. */
  function ListUnlocked(st: Store, now: Instant, limit: Option<nat>): (items: seq<View>)
    ensures |items| <= 100
    ensures limit.None? ==> |items| <= 30
    ensures limit.Some? ==> |items| <= limit.value
    ensures |items| == Queries.Min(Queries.Min(limit.GetOr(30), 100), |UnlockedRows(st, now)|)
    ensures var page := UnlockedPage(st, now, limit);
            |items| == |page| && forall i :: 0 <= i < |page| ==> items[i] == ToDict(page[i], now, true)
    ensures forall i :: 0 <= i < |items| ==>
              items[i].isPublic && items[i].isUnlocked && items[i].content.Some?
    ensures forall i, j :: 0 <= i < j < |items| ==> items[i].createdAt >= items[j].createdAt
  {
    Show(UnlockedPage(st, now, limit), now, (c: Capsule) => true)
  }

  /** The unlocked list shows the newest unlocked public capsules: no row
      more often than it is stored, none left out that is newer than one
      shown, and all of them when they fit in the limit. */
  lemma UnlockedPageIsNewest(st: Store, now: Instant, limit: Option<nat>)
    ensures var rows, page := UnlockedRows(st, now), UnlockedPage(st, now, limit);
            && multiset(page) <= multiset(rows)
            && (forall c, i :: c in multiset(rows) - multiset(page) && 0 <= i < |page| ==>
                  c.createdAt <= page[i].createdAt)
            && (|rows| <= Queries.Min(limit.GetOr(30), 100) ==> multiset(page) == multiset(rows))
  {
    var rows, page := UnlockedRows(st, now), UnlockedPage(st, now, limit);
    Ordering.TopWindow(page, rows, Queries.Min(limit.GetOr(30), 100), NewestKey);
  }

  /** Rows drawn from `LockedRows` are stored public capsules still locked at `now`. */
  lemma LockedRowsShown(st: Store, now: Instant, page: seq<Capsule>)
    requires forall i :: 0 <= i < |page| ==> page[i] in LockedRows(st, now)
    ensures forall i :: 0 <= i < |page| ==> page[i] in Records(st) && page[i].isPublic && !IsUnlocked(page[i], now)
  {
    forall i | 0 <= i < |page|
      ensures page[i] in Records(st) && page[i].isPublic && !IsUnlocked(page[i], now)
    {
      assert IsPublicLocked(now)(page[i]);
    }
  }

  /** The rows `get_locked_capsules` shows: locked public capsules, soonest
      unlock first, at most `limit` (default 10, at most 50). */
  function LockedPage(st: Store, now: Instant, limit: Option<nat>): (page: seq<Capsule>)
    ensures |page| == Queries.Min(Queries.Min(limit.GetOr(10), 50), |LockedRows(st, now)|)
    ensures forall i :: 0 <= i < |page| ==> page[i] in Records(st) && page[i].isPublic && !IsUnlocked(page[i], now)
    ensures forall i, j :: 0 <= i < j < |page| ==> page[i].unlockDate <= page[j].unlockDate
    ensures Ordering.IsSortedWindow(page, LockedRows(st, now), 0, Queries.Min(limit.GetOr(10), 50), SoonestKey)
  {
    var rows := LockedRows(st, now);
    var page := SoonestPage(rows, Queries.Min(limit.GetOr(10), 50));
    LockedRowsShown(st, now, page);
    page
  }

  /** `get_locked_capsules`: locked public capsules, soonest unlock first,
      never with content, at most `limit` (default 10, at most 50) of
      them. */
  function ListLocked(st: Store, now: Instant, limit: Option<nat>): (items: seq<View>)
    ensures |items| <= 50
    ensures limit.None? ==> |items| <= 10
    ensures limit.Some? ==> |items| <= limit.value
    ensures |items| == Queries.Min(Queries.Min(limit.GetOr(10), 50), |LockedRows(st, now)|)
    ensures var page := LockedPage(st, now, limit);
            |items| == |page| && forall i :: 0 <= i < |page| ==> items[i] == ToDict(page[i], now, false)
    ensures forall i :: 0 <= i < |items| ==>
              items[i].isPublic && !items[i].isUnlocked && items[i].content.None? && items[i].timeRemaining.Some?
    ensures forall i, j :: 0 <= i < j < |items| ==> items[i].unlockDate <= items[j].unlockDate
  {
    Show(LockedPage(st, now, limit), now, (c: Capsule) => false)
  }

  /** The locked list shows the locked public capsules that unlock soonest:
      no row more often than it is stored, none left out that unlocks
      before one shown, and all of them when they fit in the limit. */
  lemma LockedPageIsSoonest(st: Store, now: Instant, limit: Option<nat>)
    ensures var rows, page := LockedRows(st, now), LockedPage(st, now, limit);
            && multiset(page) <= multiset(rows)
            && (forall c, i :: c in multiset(rows) - multiset(page) && 0 <= i < |page| ==>
                  page[i].unlockDate <= c.unlockDate)
            && (|rows| <= Queries.Min(limit.GetOr(10), 50) ==> multiset(page) == multiset(rows))
  {
    var rows, page := LockedRows(st, now), LockedPage(st, now, limit);
    Ordering.TopWindow(page, rows, Queries.Min(limit.GetOr(10), 50), SoonestKey);
  }

  // ------------------------------------------------------------------ tags

  /** `t` is one of the tags `c` contributes to the tag index: `c` is public
      with a non-empty tags string, and `t` is a non-empty comma piece of it
      with surrounding whitespace stripped. */
  predicate TagOf(c: Capsule, t: string) {
    && c.isPublic && c.tags.Some? && c.tags.value != [] && t != []
    && exists p :: p in Text.Split(c.tags.value, ',') && Text.Strip(p) == t
  }

  /** The non-empty stripped pieces. */
  function StrippedPieces(ps: seq<string>): (r: seq<string>)
    ensures forall t :: t in r <==> t != [] && exists p :: p in ps && Text.Strip(p) == t
  {
    if ps == [] then []
    else
      var t := Text.Strip(ps[0]);
      var tail := StrippedPieces(ps[1..]);
      assert forall p :: p in ps <==> p == ps[0] || p in ps[1..];
      (if t != [] then [t] else []) + tail
  }

  /** The tags one row contributes, with repetitions. */
  function RowTags(c: Capsule): (r: seq<string>)
    ensures forall t :: t in r <==> TagOf(c, t)
  {
    if c.isPublic && c.tags.Some? && c.tags.value != [] then StrippedPieces(Text.Split(c.tags.value, ',')) else []
  }

  /** All tags the rows contribute, with repetitions. */
  function TagPieces(rows: seq<Capsule>): (r: seq<string>)
    ensures forall t :: t in r <==> exists c :: c in rows && t in RowTags(c)
  {
    if rows == [] then []
    else
      var tail := TagPieces(rows[1..]);
      assert forall d :: d in rows <==> d == rows[0] || d in rows[1..];
      RowTags(rows[0]) + tail
  }

  /** A tag some row contributes is non-empty and has nothing left to
      strip. */
  lemma TagIsStripped(rows: seq<Capsule>, t: string)
    requires exists c :: c in rows && TagOf(c, t)
    ensures t != [] && Text.Unpadded(t)
  {
    var c :| c in rows && TagOf(c, t);
    var p :| p in Text.Split(c.tags.value, ',') && Text.Strip(p) == t;
  }

  /** Tags taken from the rows' contributions are non-empty and have
      nothing left to strip. */
  lemma PiecesAreStripped(rows: seq<Capsule>, tags: seq<string>)
    requires forall i :: 0 <= i < |tags| ==> tags[i] in TagPieces(rows)
    ensures forall i :: 0 <= i < |tags| ==> tags[i] != [] && Text.Unpadded(tags[i])
  {
    forall i | 0 <= i < |tags|
      ensures tags[i] != [] && Text.Unpadded(tags[i])
    {
      TagIsStripped(rows, tags[i]);
    }
  }

  /** The rows contribute exactly the tags some row has. */
  lemma PiecesAreTags(rows: seq<Capsule>)
    ensures forall t :: t in TagPieces(rows) <==> exists c :: c in rows && TagOf(c, t)
  {
    forall t
      ensures t in TagPieces(rows) <==> exists c :: c in rows && TagOf(c, t)
    {
      if t in TagPieces(rows) {
        var c :| c in rows && t in RowTags(c);
        assert TagOf(c, t);
      }
    }
  }

  /** The tag index over `rows`: sorted ascending without repetitions,
      holding exactly the tags some row contributes. */
  function TagIndex(rows: seq<Capsule>): (tags: seq<string>)
    ensures Ordering.StrictlySorted(tags)
    ensures forall i :: 0 <= i < |tags| ==> tags[i] != [] && Text.Unpadded(tags[i])
    ensures forall t :: t in tags <==> exists c :: c in rows && TagOf(c, t)
  {
    var pieces := TagPieces(rows);
    PiecesAreTags(rows);
    var tags := Ordering.SortedUnique(pieces);
    assert forall i :: 0 <= i < |tags| ==> tags[i] in pieces;
    PiecesAreStripped(rows, tags);
    tags
  }

  /** `get_tags`: the tag index, sorted ascending without repetitions,
      holding exactly the stripped non-empty comma pieces of the public
      capsules' tags. */
  function GetTags(st: Store): (tags: seq<string>)
    ensures Ordering.StrictlySorted(tags)
    ensures forall i :: 0 <= i < |tags| ==> tags[i] != [] && Text.Unpadded(tags[i])
    ensures forall t :: t in tags <==> exists c :: c in Records(st) && TagOf(c, t)
  {
    TagIndex(Records(st))
  }

  /** Stripping a listed tag again changes nothing. */
  lemma ListedTagsAreStripped(st: Store)
    ensures forall i :: 0 <= i < |GetTags(st)| ==> Text.Strip(GetTags(st)[i]) == GetTags(st)[i]
  {
    var tags := GetTags(st);
    forall i | 0 <= i < |tags|
      ensures Text.Strip(tags[i]) == tags[i]
    {
      Text.UnpaddedIsStripped(tags[i]);
    }
  }

  // ----------------------------------------------------------------- stats

  datatype Stats = Stats(total: nat, unlocked: nat, locked: nat)

  function PublicRows(st: Store): seq<Capsule> {
    Queries.Filter(Records(st), IsPublicRow())
  }

  /** `get_stats`: counts over the public capsules only; every one of them
      is either unlocked or locked. */
  function GetStats(st: Store, now: Instant): (s: Stats)
    ensures s.total == |PublicRows(st)|
    ensures s.unlocked == |UnlockedRows(st, now)|
    ensures s.locked == |LockedRows(st, now)|
    ensures s.total == s.unlocked + s.locked
  {
    Queries.FilterPartition(Records(st), IsPublicRow(), IsPublicUnlocked(now), IsPublicLocked(now));
    Stats(|PublicRows(st)|, |UnlockedRows(st, now)|, |LockedRows(st, now)|)
  }
}

=== FILE: text.dfy ===
/** The handful of Python string operations the capsule service relies on:
    `str.strip()`, `str.split(sep)`, `sep.join(xs)` and substring search.
    Strings are sequences of code points. */
module Text {

  /** Python's `str.isspace` for a single code point: the characters whose
      bidirectional class is WS, B or S, or whose category is Zs. */
  predicate IsSpace(c: char) {
    || c == ' '
    || ('\t' <= c <= '\r')
    || ('\U{1C}' <= c <= '\U{1F}')
    || c == '\U{85}'
    || c == '\U{A0}'
    || c == '\U{1680}'
    || ('\U{2000}' <= c <= '\U{200A}')
    || c == '\U{2028}'
    || c == '\U{2029}'
    || c == '\U{202F}'
    || c == '\U{205F}'
    || c == '\U{3000}'
  }

  /** Python's `str.lstrip()`: `s` without its leading whitespace, a
      suffix of `s` that does not start with whitespace. */
  function LStrip(s: string): (r: string)
    ensures |r| <= |s| && r == s[|s| - |r|..]
    ensures r != [] ==> !IsSpace(r[0])
  {
    if s != [] && IsSpace(s[0]) then LStrip(s[1..]) else s
  }

  /** What `lstrip` removes is whitespace. */
  lemma {:induction false} LStripRemovesSpace(s: string)
    ensures forall k :: 0 <= k < |s| - |LStrip(s)| ==> IsSpace(s[k])
  {
    if s != [] && IsSpace(s[0]) {
      LStripRemovesSpace(s[1..]);
      forall k | 1 <= k < |s| - |LStrip(s)|
        ensures IsSpace(s[k])
      {
        assert s[k] == s[1..][k - 1];
      }
    }
  }

  /** Python's `str.rstrip()`: `s` without its trailing whitespace, a
      prefix of `s` that does not end with whitespace. */
  function RStrip(s: string): (r: string)
    ensures |r| <= |s| && r == s[..|r|]
    ensures r != [] ==> !IsSpace(r[|r| - 1])
  {
    if s != [] && IsSpace(s[|s| - 1]) then RStrip(s[..|s| - 1]) else s
  }

  /** What `rstrip` removes is whitespace. */
  lemma {:induction false} RStripRemovesSpace(s: string)
    ensures forall k :: |RStrip(s)| <= k < |s| ==> IsSpace(s[k])
  {
    if s != [] && IsSpace(s[|s| - 1]) {
      RStripRemovesSpace(s[..|s| - 1]);
      forall k | |RStrip(s)| <= k < |s| - 1
        ensures IsSpace(s[k])
      {
        assert s[k] == s[..|s| - 1][k];
      }
    }
  }

  /** `s` neither starts nor ends with whitespace. */
  predicate Unpadded(s: string) {
    s == [] || (!IsSpace(s[0]) && !IsSpace(s[|s| - 1]))
  }

  /** Python's `str.strip()` with no argument: `s` without its leading and
      trailing whitespace. */
  function Strip(s: string): (r: string)
    ensures |r| <= |s|
    ensures r == [] || (!IsSpace(r[0]) && !IsSpace(r[|r| - 1]))
  {
    RStrip(LStrip(s))
  }

  /** What `strip` keeps is the part of `s` between a whitespace prefix and
      a whitespace suffix. */
  lemma StripIsMiddle(s: string)
    ensures var r, i := Strip(s), |s| - |LStrip(s)|;
              && i + |r| <= |s| && r == s[i..i + |r|]
              && (forall k :: 0 <= k < i ==> IsSpace(s[k]))
              && (forall k :: i + |r| <= k < |s| ==> IsSpace(s[k]))
  {
    var rest := LStrip(s);
    var i := |s| - |rest|;
    SliceOfSuffix(s, i, |RStrip(rest)|);
    LStripRemovesSpace(s);
    RStripRemovesSpace(rest);
    SpaceInSuffix(s, i, |RStrip(rest)|);
  }

  /** A prefix of a suffix is a slice. */
  lemma SliceOfSuffix<T>(s: seq<T>, i: nat, n: nat)
    requires i + n <= |s|
    ensures s[i..][..n] == s[i..i + n]
  {
  }

  /** Whitespace at the end of a suffix is whitespace at the end of the
      whole string. */
  lemma SpaceInSuffix(s: string, i: nat, m: nat)
    requires i <= |s|
    requires forall k :: m <= k < |s| - i ==> IsSpace(s[i..][k])
    ensures forall k :: i + m <= k < |s| ==> IsSpace(s[k])
  {
    forall k | i + m <= k < |s|
      ensures IsSpace(s[k])
    {
      assert s[k] == s[i..][k - i];
    }
  }

  /** Stripping leaves nothing exactly when the string is all
      whitespace. */
  lemma StripEmptyIffBlank(s: string)
    ensures Strip(s) == [] <==> forall k :: 0 <= k < |s| ==> IsSpace(s[k])
  {
    StripIsMiddle(s);
  }

  /** Stripping twice strips nothing more. */
  lemma StripIdempotent(s: string)
    ensures Strip(Strip(s)) == Strip(s)
  {
    UnpaddedIsStripped(Strip(s));
  }

  /** A string with no whitespace at either end is its own strip. */
  lemma UnpaddedIsStripped(s: string)
    requires Unpadded(s)
    ensures Strip(s) == s
  {
    assert LStrip(s) == s;
    assert RStrip(s) == s;
  }

  /** Python's `sep.join(xs)` for a one-character separator. */
  function Join(xs: seq<string>, sep: char): string
  {
    if |xs| == 0 then []
    else if |xs| == 1 then xs[0]
    else xs[0] + [sep] + Join(xs[1..], sep)
  }

  /** Python's `s.split(sep)` for a one-character separator: the maximal
      separator-free pieces of `s`, always at least one of them. */
  function Split(s: string, sep: char): (r: seq<string>)
    ensures |r| >= 1
    ensures forall p :: p in r ==> sep !in p
    ensures Join(r, sep) == s
  {
    if s == [] then [[]]
    else
      var rest := Split(s[1..], sep);
      if s[0] == sep then
        assert ([[]] + rest)[1..] == rest;
        [[]] + rest
      else
        var r := [[s[0]] + rest[0]] + rest[1..];
        assert r[1..] == rest[1..];
        assert forall p :: p in r ==> p == [s[0]] + rest[0] || p in rest;
        r
  }

  /** Python's split yields one more piece than there are separators. */
  lemma {:induction false} SplitCount(s: string, sep: char)
    ensures |Split(s, sep)| == multiset(s)[sep] + 1
  {
    if s != [] {
      SplitCount(s[1..], sep);
      CountStep(s, sep);
      SplitLengthStep(s, sep);
    }
  }

  /** The occurrences of `x` in `s` are those in its tail plus its head. */
  lemma CountStep(s: string, x: char)
    requires s != []
    ensures multiset(s)[x] == multiset(s[1..])[x] + (if s[0] == x then 1 else 0)
  {
    assert s == [s[0]] + s[1..];
  }

  /** A leading separator starts a new piece; any other character extends
      the first one. */
  lemma SplitLengthStep(s: string, sep: char)
    requires s != []
    ensures |Split(s, sep)| == |Split(s[1..], sep)| + (if s[0] == sep then 1 else 0)
  {
  }

  /** `needle` occurs as a contiguous part of `hay` (SQL `LIKE '%needle%'`
      without wildcard characters in `needle`). */
  predicate Contains(hay: string, needle: string) {
    needle <= hay || (hay != [] && Contains(hay[1..], needle))
  }

  /** A separator-free string splits into itself. */
  lemma {:induction false} SplitWithoutSeparator(a: string, sep: char)
    requires sep !in a
    ensures Split(a, sep) == [a]
  {
    if a != [] {
      SplitWithoutSeparator(a[1..], sep);
      assert [a[0]] + a[1..] == a;
    }
  }

  /** Splitting at the first separator peels off the part before it. */
  lemma {:induction false} SplitAtFirstSeparator(a: string, b: string, sep: char)
    requires sep !in a
    ensures Split(a + [sep] + b, sep) == [a] + Split(b, sep)
  {
    var s := a + [sep] + b;
    if a == [] {
      assert s[1..] == b;
    } else {
      assert s[1..] == a[1..] + [sep] + b;
      SplitAtFirstSeparator(a[1..], b, sep);
      assert [a[0]] + a[1..] == a;
    }
  }

  /** Join and split are inverse on non-empty lists of separator-free
      strings. */
  lemma {:induction false} SplitJoin(xs: seq<string>, sep: char)
    requires |xs| >= 1
    requires forall p :: p in xs ==> sep !in p
    ensures Split(Join(xs, sep), sep) == xs
  {
    if |xs| == 1 {
      SplitWithoutSeparator(xs[0], sep);
    } else {
      SplitJoin(xs[1..], sep);
      SplitAtFirstSeparator(xs[0], Join(xs[1..], sep), sep);
      assert [xs[0]] + xs[1..] == xs;
    }
  }

  /** The join of a list is empty exactly when the list is empty or holds
      one empty string. */
  lemma JoinEmpty(xs: seq<string>, sep: char)
    ensures Join(xs, sep) == [] <==> xs == [] || xs == [[]]
  {
    if |xs| >= 2 {
      assert |Join(xs, sep)| >= 1;
    }
  }
}
